=== FILE: README.md ===
# Radar listener — a Dafny model

This project models the decision logic of the radar speed listener and of its
`latest()` presentation endpoint. The listener's logic lives in `listener.py`.

- **Datagram parsing.** A line is split on commas. There must be at least four fields. The lane is field 2, stripped. The speed is `int(field 3)`. The timestamp is field 4, or the receipt time when there is no field 4.
- **Transaction sequencer.** The counter is seeded from `COALESCE(MAX(txn_no), 0)`; when `init_db` fails, the error is only printed and the counter stays at 0. Each accepted reading gets the next number. The newest ten transactions are kept newest first, as a `deque(maxlen=10)` does.
- **Display decisions.**
  - The display duration comes in four speed buckets.
  - The show command is red above 80 km/h and green otherwise.
  - The clear command is a fixed string.
  - Messages are framed with CRLF.
  - Each send is logged with a CLEAR or DISPLAY tag.
- **Dispatch.** Only a lane that has a display is dispatched to. Dispatch means one show command plus a re-armed clear timer.
- **Lane timer table.** Arming a lane cancels that lane's pending clear and replaces it. A cancelled timer never sends.
- **Manual entry.** Each round of the manual-entry loop either quits on `exit` (any letter case), rejects a lane that has no display, rejects a speed `int()` cannot read, or synthesizes the packet `MZ,0,{lane},{speed},{dt},1,`.
- **Per-lane view.** `latest()` in `radar_app/api_server.py` builds a per-lane view of the snapshot.
  - Lanes 1–4 start with placeholder cards.
  - Every lane seen in the history shows its entry with the highest transaction number.
  - The newest transaction is listed under `lastTxn`.

## Modules

| file | module | contents |
|---|---|---|
| `radar.dfy` | `Radar` | `Option`, display endpoints, the 80 km/h overspeed limit |
| `strings.dfy` | `Strings` | Python's `split`, `join`, `strip`, `endswith` and `in` on strings |
| `integers.dfy` | `Integers` | Python's `int(text)` in base 10, and `str(n)` |
| `parser.dfy` | `Parser` | the reading parser and the manual packet |
| `display.dfy` | `Display` | duration buckets, show and clear commands, CRLF framing, log tag |
| `transactions.dfy` | `Transactions` | counter seeding, `save_transaction`, the bounded history |
| `lane_timers.dfy` | `LaneTimers` | `reset_lane_timer` and the firing of a clear timer |
| `listener.dfy` | `Listener` | `handle_packet` as a state step, and the manual-entry decisions |
| `api_server.dfy` | `ApiServer` | the per-lane selection of `latest()` |

### Effects and inputs

The handler is a pure function from `(state, line)` to `(state, outcome)`.
The outcome lists what the handler does:
- the transaction recorded;
- the snapshot written;
- whether the database insert is attempted;
- the TCP messages sent;
- the clear timer armed.

Some things the handler reads from the outside world become parameters:
- the lane → display registry, loaded from configuration;
- the formatted receipt time;
- the manual path's current time;
- what `init_db` read from the store: the highest stored `txn_no`, or a failure;
- whether writing the snapshot file succeeded.

Timers are values with distinct ids. Firing a timer is a separate step.

### Behaviour worth noting

- `int()` accepts a sign, so negative speeds are accepted and recorded. A negative speed gets the 4 s green display.
- A database insert failure is caught inside `insert_mysql` and does not block dispatch. A failure while writing the snapshot file is different:
  - it propagates out of `save_transaction`, so the insert and the dispatch are skipped;
  - the counter and the history have already advanced.

  The model makes this explicit with `snapshotOk` (`Listener.SnapshotFailureSkipsDispatch`).
- `init_db` catches every exception (listener.py:51-52). If the store cannot be reached, the counter keeps its initial 0 (listener.py:18), and numbering restarts at 1 even though the store may already hold those numbers. The model makes this explicit with `StoreRead.InitFailed` (`Transactions.FailedInitReusesStoredNumbers`).
- `int()` refuses more than 4300 digits (Python's default `sys.get_int_max_str_digits`). A datagram holds at most 1024 bytes, but the manual speed input has no length limit, so a longer speed is reported as invalid there.
- The manual path strips the speed input before calling `int()`. That strip is `str.strip()`, which also removes `\x1c`..`\x1f`. The datagram path calls `int()` directly, and `int()` does not skip those characters.

## Model

| member | source | states |
|---|---|---|
| Strings.Split | listener.py:155 | `text.split(",")` yields at least one field, and no field contains the separator |
| Strings.JoinSplit | listener.py:155 | joining the fields of a split with the separator gives back the original line |
| Strings.Join | listener.py:226 | a comma join starts with the first field, ends with the last, and is at least one separator per gap long |
| Strings.EndsWith | listener.py:126-127 | `s.endswith(p)` holds exactly when `s` is some text followed by `p` |
| Strings.EndsWithAppended | listener.py:126-127 | text followed by `p` ends with `p`, and putting text in front keeps a suffix |
| Strings.SplitCount | listener.py:155-156 | a split has exactly one more field than the line has separators |
| Strings.SplitJoin | listener.py:155 | splitting a join of separator-free fields gives back exactly those fields |
| Strings.SplitFirst | listener.py:155 | a separator-free first field is split off whole |
| Strings.SplitNoSep | listener.py:155 | a line without a separator is a single field |
| Strings.Strip | listener.py:158 | `str.strip()` is no longer than its input, neither starts nor ends with whitespace, and is empty exactly when the input is all whitespace |
| Strings.Trim | listener.py:158 | the stripped lane neither starts nor ends with whitespace and is no longer than the field |
| Strings.TrimStart | listener.py:158 | stripping the front removes a prefix made only of whitespace and stops at the first non-space |
| Strings.TrimEnd | listener.py:158 | stripping the back removes a suffix made only of whitespace and stops at the last non-space |
| Strings.TrimIdempotent | listener.py:158 | `s.strip().strip() == s.strip()` |
| Strings.TrimUnpadded | listener.py:212 | a lane with no surrounding whitespace is unchanged by `strip()` |
| Strings.TrimPadded | listener.py:212 | whitespace padding around an unpadded core is exactly what `strip()` removes |
| Strings.Contains | listener.py:130 | `p in s` holds whenever `s` starts with `p`, and only when `p` is no longer than `s` |
| Strings.ContainsAt | listener.py:130 | `"\|C\|" in message` holds exactly when the marker occurs at some position of the message |
| Strings.ContainsNeedsChar | listener.py:130 | a message lacking one of the marker's characters does not contain the marker |
| Integers.NatToDigits | listener.py:175 | the decimal digits of a natural number are all digits, and the first is `0` only for the single digit of 0 |
| Integers.IntToString | listener.py:175 | `str(speed)` is digits ending in a digit, with a `-` only in front and exactly for negative speeds, and no leading zero after the sign unless the number is 0 |
| Integers.ParseInt | listener.py:160 | `int()` accepts exactly an optional sign and a digit run of at most 4300 digits once its whitespace is removed; an accepted value has at most 4300 digits, and the text with `int()`'s whitespace removed is non-empty and ends in a digit |
| Integers.ParseSigned | listener.py:160 | a text is accepted exactly when it is an optional `+` or `-` followed by an accepted digit run; an accepted text is an optional leading sign and then digits and underscores, ends in a digit, is negative only with a leading `-`, and stays within 4300 digits |
| Integers.ReadRun | listener.py:160 | a digit run is read exactly when it is digits with single underscores between them and at most 4300 digits |
| Integers.ParseIntOfZeroPadded | listener.py:160 | `int()` reads whitespace, an optional `+` or `-`, any leading zeros and the digits of `n` as `n` (negated after `-`), while the digits, zeros included, number at most 4300 |
| Integers.ParseIntUnderscore | listener.py:160 | one `_` between two digit runs changes neither acceptance nor value: `int("1_000") == int("1000")` |
| Integers.RunValueLeadingZeros | listener.py:160 | leading zeros do not change the value of a digit run |
| Integers.UnderscoreNeutral | listener.py:160 | an underscore adds neither a digit nor value to a run |
| Integers.LongNumberRejected | listener.py:160 | `int()` of a number printed with more than 4300 digits fails |
| Integers.RunValueOfDigits | listener.py:160 | the printed digits of `n` form a digit run `int()` accepts, and their value is `n` |
| Integers.ParseIntOfString | listener.py:160 | `int(str(n)) == n` for every integer of at most 4300 digits |
| Integers.ParseIntOfPaddedString | listener.py:220 | `int()` of the printed number with whitespace around it still reads `n` |
| Integers.ParseIntOfTrimmed | listener.py:160 | any text whose `int()`-whitespace trim is `str(n)` reads as `n` |
| Integers.ParseSignedOfString | listener.py:160 | once the whitespace is gone, the sign and digits of `str(n)` read back as `n` |
| Parser.Parse | listener.py:155-163 | an accepted line has at least three commas; its lane holds no comma and is already stripped |
| Parser.ShortLineRejected | listener.py:155-157 | a line with fewer than four fields is rejected |
| Parser.ParseFields | listener.py:155-163 | for a line of comma-free fields: rejected when there are fewer than 4 fields or field 3 is not an integer; otherwise lane = strip(field 2), speed = int(field 3), timestamp = field 4 if present, else the receipt time |
| Parser.ManualPacket | listener.py:226 | the manual packet starts with `MZ,0,`, ends with `,1,`, and is ten characters longer than the lane, the printed speed and the time together |
| Parser.ManualPacketFields | listener.py:226 | the manual packet is the comma join of `MZ`, `0`, lane, speed, dt, `1` and an empty last field |
| Parser.ManualPacketRoundTrip | listener.py:226 | parsing the manual packet gives back the stripped lane, the speed and the timestamp it was built from, when neither the lane nor the timestamp holds a comma |
| Display.DisplayDurationMs | listener.py:168-171 | the duration lies between 1.5 s and 4 s; it is 4 s exactly up to 50 km/h and 1.5 s exactly for overspeed |
| Display.DurationBoundaries | listener.py:168-171 | the breakpoints 50, 60 and 80 are inclusive: 50→4 s, 51→3 s, 60→3 s, 61→2 s, 80→2 s, 81→1.5 s |
| Display.DurationMonotone | listener.py:168-171 | a faster reading is never shown longer than a slower one |
| Display.DurationShortestIffOverspeed | listener.py:168-171 | the 1.5 s duration is used exactly for overspeed readings |
| Display.ShowCommand | listener.py:174-177 | the show command is 18 characters longer than the printed speed, opens and closes with `\|`, and holds no `C` (so it is never taken for a clear) |
| Display.ShowCommandRedIffOverspeed | listener.py:174-177 | the show command is the red `\|7\|1\|1\|1\|` form exactly for speeds above 80, and the green `\|7\|2\|1\|1\|` form otherwise |
| Display.ShowCommandFields | listener.py:174-177 | the show command is the `\|` join of nine fields, with the speed's `str()` as field 3 |
| Display.ShowCommandSpeedRoundTrip | listener.py:174-177 | splitting the show command on `\|` gives nine fields, and `int()` of field 3 is the speed |
| Display.Frame | listener.py:126-127 | the wire form ends in CRLF and extends the message by at most two characters |
| Display.FrameIdempotent | listener.py:126-127 | framing an already framed message changes nothing |
| Display.FrameExact | listener.py:126-127 | a message already ending in CRLF goes out unchanged; any other message gets exactly CRLF appended |
| Display.TagOf | listener.py:130 | the log tag is CLEAR exactly when `\|C\|` occurs in the message |
| Display.SendTcp | listener.py:124-130 | a send goes to the given endpoint; its wire form is the message followed by at most CRLF, ends in CRLF, is the message itself when that already ends in CRLF, and is tagged CLEAR exactly when `\|C\|` occurs in it |
| Display.ShowCommandTaggedDisplay | listener.py:130 | a framed show command is logged as DISPLAY |
| Display.ClearSent | listener.py:124-130 | sending the clear command puts the clear command plus CRLF on the wire, tagged CLEAR |
| Display.ClearCommandTaggedClear | listener.py:179 | the clear command goes out as itself plus CRLF and is logged as CLEAR |
| Transactions.Newest | listener.py:17 | the bounded history keeps the first ten entries, or all of them when there are fewer |
| Transactions.Record | listener.py:103-114 | number = counter + 1; the new counter is that number; overspeed exactly when speed > 80; the entry carries the lane, speed and timestamp; it heads the history, followed by the old history minus its oldest entry when full |
| Transactions.Seed | listener.py:47-52 | the seeded ledger satisfies the sequencer invariant with an empty history; its counter is the stored maximum, or 0 when `init_db` failed |
| Transactions.FirstAfterRestart | listener.py:47-52 | after a restart the first transaction is numbered max + 1 (43 after 42), 1 when the store is empty, and 1 when `init_db` failed |
| Transactions.FailedInitReusesStoredNumbers | listener.py:47-52 | after a successful read every new number exceeds the stored maximum; after a failed `init_db` the transaction recorded m-th is numbered m again, repeating the stored maximum m |
| Transactions.SnapshotAfter | listener.py:117 | the snapshot's `latest` is the new transaction and its `last10` is the whole updated history, which that transaction heads |
| Transactions.RecordValid | listener.py:103-114 | recording keeps the invariant: at most ten entries, strictly decreasing numbers, the head equal to the counter, overspeed flags consistent |
| Transactions.RecordAll | listener.py:103-114 | recording k readings produces k transactions |
| Transactions.RecordAllNumbers | listener.py:106 | k readings advance the counter by k and are numbered consecutively from counter + 1 |
| Transactions.RecordAllIncreasing | listener.py:106 | transactions recorded in sequence have strictly increasing numbers |
| Transactions.RecordAllHistory | listener.py:114 | after any run of readings, the history is the newest ten of those transactions (newest first) followed by the earlier history |
| Transactions.NewestAbsorbs | listener.py:17 | truncating to capacity before prepending more entries gives the same buffer as truncating once |
| LaneTimers.Arm | listener.py:139-145 | the lane is armed with a fresh timer carrying the endpoint, delay and message; other lanes are unchanged; the lane's previous timer, if any, is added to the cancelled set |
| LaneTimers.Fire | listener.py:143 | a timer sends its clear exactly when it is still its lane's pending timer; the lane then becomes idle; otherwise nothing changes |
| LaneTimers.EmptyValid | listener.py:15 | the empty timer table satisfies the table invariant |
| LaneTimers.ArmValid | listener.py:139-145 | arming keeps the table invariant: each timer is filed under its own lane, no pending timer is cancelled, ids are unique |
| LaneTimers.FireValid | listener.py:143 | firing keeps the table invariant |
| LaneTimers.CancelledNeverFires | listener.py:141-142 | a cancelled timer never sends |
| LaneTimers.RearmSupersedes | listener.py:141-145 | re-arming a lane cancels its previous timer, which stays silent, while the new timer sends its own message |
| LaneTimers.FiresAtMostOnce | listener.py:143-145 | a timer that has fired cannot send a second time |
| Listener.HandlePacket | listener.py:148-183 | at most one message is sent; a send happens only for a recorded transaction whose lane has a display; a timer is armed exactly when a send happens |
| Listener.HandleReading | listener.py:165-183 | the same three guarantees for a line that has already been parsed |
| Listener.FireTimer | listener.py:141-145 | a timer sends exactly when it is still its lane's armed timer; it then sends its message to its display and the lane becomes idle; other lanes and the sequencer are untouched |
| Listener.ClearSentOnce | listener.py:141-145 | a lane's clear goes out at most once: firing a timer that has fired sends nothing |
| Listener.Start | listener.py:242 | the listener after startup satisfies both invariants, has an empty history and no armed lane, and its counter is the stored maximum, or 0 after a failed `init_db` |
| Listener.HandleValid | listener.py:148-183 | handling any line keeps the sequencer and timer-table invariants |
| Listener.FireValid | listener.py:143 | a timer firing keeps the invariants |
| Listener.RejectedLineIgnored | listener.py:155-162 | a line the parser rejects leaves the state unchanged and has no effect |
| Listener.ShortLineIgnored | listener.py:156-157 | the line `A,1` is ignored |
| Listener.AcceptedRecorded | listener.py:103-122 | an accepted reading is recorded with number counter + 1 and its overspeed flag; the new ledger is exactly `Record`'s (the entry pushed on the front of the ten-entry history); when the snapshot is written it holds the entry and the whole history, and the insert is attempted |
| Listener.RegisteredLaneDispatched | listener.py:180-183 | a reading for a lane with a display sends one show command there; the command is red exactly when the transaction is overspeed; it is logged DISPLAY; and the lane is armed with a clear for the speed's duration, other lanes untouched |
| Listener.UnregisteredLaneNotDispatched | listener.py:117-181 | a reading for a lane without a display is recorded, written to the snapshot and inserted (when the snapshot write succeeds), but nothing is sent and no timer changes |
| Listener.SnapshotFailureSkipsDispatch | listener.py:117-122 | if writing the snapshot fails, the transaction is counted, but it is neither stored nor dispatched, and the timers are unchanged |
| Listener.OverspeedExample | listener.py:148-183 | `MZ,0,2,95,2024-01-01 10:00:00,1,` for lane 2 at 10.0.0.5:4001 records lane 2, speed 95, overspeed; sends `\|T\|22-18\|95\|7\|1\|1\|1\|` + CRLF as DISPLAY; arms a 1.5 s clear |
| Listener.SupersededClearNeverSent | listener.py:139-145 | with two readings for one lane, the first clear timer never fires, the second sends the clear command plus CRLF tagged CLEAR, and the second transaction has the higher number |
| Listener.SupersededReadings | listener.py:139-145 | the same for two parsed readings of one lane: only the second clear fires, and the second number is higher |
| Listener.ManualEntry | listener.py:212-226 | quit exactly on `exit` in any case; an invalid lane exactly when the lane has no display; an invalid speed exactly when `int()` rejects it; otherwise the packet is built from the stripped lane, the parsed speed and the time |
| Listener.ManualEntryDispatched | listener.py:226-227 | a submitted manual packet parses back to the entered lane, speed and time, and is sent to that lane's display as its show command |
| ApiServer.InsertByTxn | radar_app/api_server.py:27 | inserting into a txn-descending sequence keeps it descending and adds exactly that element |
| ApiServer.SortByTxnDesc | radar_app/api_server.py:27 | the sorted history is txn-descending and is a permutation of the history |
| ApiServer.PickFirstPerLane | radar_app/api_server.py:29-33 | the loop keeps every existing key; each card is either the one already there or a transaction from the sorted history; if every transaction card sat under its own lane before, it still does |
| ApiServer.Defaults | radar_app/api_server.py:23 | the starting cards are exactly lanes 1–4, each with the placeholder |
| ApiServer.LatestView | radar_app/api_server.py:22-36 | the response holds `lastTxn` and lanes 1–4, and every other card is a placeholder or a history transaction of that very lane |
| ApiServer.PickedFromHistory | radar_app/api_server.py:23-33 | each lane card the loop leaves is a placeholder or a history transaction of its own lane |
| ApiServer.FirstOfLane | radar_app/api_server.py:29-33 | the index of the first entry with a given lane: that entry has the lane and none before it does |
| ApiServer.PickFirstPerLaneKeys | radar_app/api_server.py:29-33 | the loop adds a key exactly for each lane not seen before |
| ApiServer.PickFirstPerLaneKeeps | radar_app/api_server.py:29-33 | a key that was already seen, or that no entry has, keeps its value |
| ApiServer.PickFirstPerLaneFirst | radar_app/api_server.py:29-33 | a lane not yet seen gets its first entry in iteration order |
| ApiServer.FirstOfLaneIsNewest | radar_app/api_server.py:25-33 | in a txn-descending sequence, a lane's first entry has that lane's highest number |
| ApiServer.SameElementsSameLanes | radar_app/api_server.py:27 | sorting changes neither the set of entries nor the set of lanes |
| ApiServer.LatestViewKeys | radar_app/api_server.py:23-36 | the response holds exactly lanes 1–4, every lane of the history, and `lastTxn` |
| ApiServer.LatestViewDefaults | radar_app/api_server.py:23 | a lane from 1–4 with no history entry shows the placeholder card |
| ApiServer.LatestLaneIsNewest | radar_app/api_server.py:25-33 | every lane of the history shows one of its own entries, with the highest transaction number for that lane |
| ApiServer.LatestViewLastTxn | radar_app/api_server.py:36 | `lastTxn` is the newest transaction, or `{}` when there is none |
| ApiServer.LatestViewOrderIndependent | radar_app/api_server.py:27-33 | when transaction numbers are unique, the response does not depend on the order of the history |
| ApiServer.SameNewestOfLane | radar_app/api_server.py:27-33 | with unique numbers, two orders of one history show the same card for each lane of it |
| ApiServer.RecordedShownForItsLane | radar_app/api_server.py:29-33 | right after a transaction is recorded, the view shows it for its lane |
| ApiServer.RecordedSnapshotShowsNewest | radar_app/api_server.py:25-33 | right after a transaction is recorded, the view shows every lane of the new history with one of its own entries of the highest number |
| ApiServer.NewestFirstHead | radar_app/api_server.py:27 | in a newest-first history the head has the highest number and all numbers are unique |

## Left out

- Sockets, the UDP receive loop and its UTF-8 decode and strip (listener.py:199-205), TCP connect and send, thread start-up, and the `timer_lock`. The model is sequential: one handled line or one timer firing is one step. Races between concurrent handler threads on `txn_counter` and the deque are not modelled.
- The log file, console output and the log line text. The log tag is modelled (`Display.TagOf`); the rest of the line is not. The model assumes that writing the receipt line to the log file (listener.py:153) succeeds, just as `snapshotOk` covers the snapshot write: if `log_to_file` raises, `handle_packet`'s catch-all drops the line before it is parsed.
- The contents of the JSON snapshot file beyond `{latest, last10}`. The JSON encoding, and reading the file back in `latest()` (including its exception path), are not modelled.
- MySQL: table creation, the insert and its failure handling. The model records only whether the insert is attempted. What `init_db` reads is a parameter: the stored maximum, or a failure that leaves the counter at 0.
- Configuration loading and its defaults (listener.py:68-90). The lane → display registry is a parameter.
- `datetime.now()` and its formatting are parameters.
- Durations are integer milliseconds rather than float seconds.
- Transport failures of a send are caught and only logged, so the model records the attempt and not its result.
- Integers.ParseInt: non-ASCII decimal digits, which Python's `int()` accepts, are rejected. The 4300-digit limit is modelled.
- Integers.IntToString: does not fail beyond 4300 digits, as Python's `str()` does. Every printed speed comes from `ParseInt`, which keeps it within the limit. The round-trip lemmas (`ParseIntOfString` and those built on it) require `WithinDigitLimit`, since `int()` rejects longer numbers.
- LaneTimers.Fire: removes the lane's entry when its timer fires, whereas Python leaves the finished `Timer` in the dict. A later `cancel()` of a finished timer does nothing, so what is sent is the same.
- ApiServer.SortByTxnDesc: states sortedness and permutation but not stability. Python's `sorted(..., reverse=True)` keeps equal-numbered entries in their original order, and the insertion sort does too, but no contract says so. With unique numbers the result is fixed anyway.
- ApiServer.LatestLaneIsNewest: does not state the tie-break when two entries of one lane share a transaction number. In `SortByTxnDesc`, as in Python's stable `sorted`, the earlier entry wins.
- Listener.ManualEntry: models one round of the loop. The `KeyboardInterrupt` exit and the prompts are left out.

=== FILE: api_server.dfy ===
/** The per-lane selection of the presentation endpoint `latest()`
    (radar_app/api_server.py:22-36): start from placeholder cards for lanes 1-4,
    give each lane seen in the history its transaction with the highest number,
    and add the newest transaction under `lastTxn`. */
module ApiServer {
  import opened Radar
  import opened Transactions

  /** A value of the response object: the placeholder card
      `{speed: 0, timestamp: "--", overspeed: false, txn: 0}`, a transaction, or
      the empty object `{}`. */
  datatype Card = Placeholder | Shown(entry: Transaction) | EmptyObject

  const DefaultLanes: set<string> := {"1", "2", "3", "4"}
  const LastTxnKey: string := "lastTxn"

  /** The lanes appearing in a history. */
  function LanesOf(s: seq<Transaction>): set<string>
  {
    set e | e in s :: e.lane
  }

  ghost predicate SortedByTxnDesc(s: seq<Transaction>)
  {
    forall i, j :: 0 <= i < j < |s| ==> s[i].txn >= s[j].txn
  }

  /** No two distinct history entries share a transaction number. */
  ghost predicate UniqueTxns(s: seq<Transaction>)
  {
    forall x, y :: x in s && y in s && x.txn == y.txn ==> x == y
  }

  /** Inserts `x` before the first entry whose number is not above its own, so
      that, among equal numbers, earlier entries stay first. */
  function InsertByTxn(x: Transaction, s: seq<Transaction>): (r: seq<Transaction>)
    requires SortedByTxnDesc(s)
    ensures SortedByTxnDesc(r)
    ensures multiset(r) == multiset(s) + multiset{x}
    ensures r[0] == x || (s != [] && r[0] == s[0])
    decreases |s|
  {
    if s == [] || s[0].txn <= x.txn then [x] + s
    else
      var rest := InsertByTxn(x, s[1..]);
      assert s == [s[0]] + s[1..];
      ConsSorted(s[0], rest);
      [s[0]] + rest
  }

  lemma ConsSorted(head: Transaction, rest: seq<Transaction>)
    requires SortedByTxnDesc(rest)
    requires rest != [] ==> head.txn >= rest[0].txn
    ensures SortedByTxnDesc([head] + rest)
  {
    var r := [head] + rest;
    forall i, j | 0 <= i < j < |r| ensures r[i].txn >= r[j].txn {
      assert r[j] == rest[j - 1];
      if i > 0 {
        assert r[i] == rest[i - 1];
      }
    }
  }

  /** `sorted(last10, key=txn, reverse=True)`: a stable sort, newest number first. */
  function SortByTxnDesc(s: seq<Transaction>): (r: seq<Transaction>)
    ensures SortedByTxnDesc(r)
    ensures multiset(r) == multiset(s)
    decreases |s|
  {
    if s == [] then []
    else
      assert s == [s[0]] + s[1..];
      InsertByTxn(s[0], SortByTxnDesc(s[1..]))
  }

  /** Every transaction card sits under its own lane. */
  ghost predicate CardsMatchLanes(view: map<string, Card>)
  {
    forall l :: l in view && view[l].Shown? ==> view[l].entry.lane == l
  }

  /** The loop over the sorted entries: the first entry seen for a lane is the one
      kept for it. */
  function PickFirstPerLane(sorted: seq<Transaction>, view: map<string, Card>, seen: set<string>): (r: map<string, Card>)
    ensures view.Keys <= r.Keys
    ensures forall l :: l in r ==> (l in view && r[l] == view[l]) || (r[l].Shown? && r[l].entry in sorted)
    ensures CardsMatchLanes(view) ==> CardsMatchLanes(r)
    decreases |sorted|
  {
    if sorted == [] then view
    else
      var e := sorted[0];
      if e.lane !in seen then PickFirstPerLane(sorted[1..], view[e.lane := Shown(e)], seen + {e.lane})
      else PickFirstPerLane(sorted[1..], view, seen)
  }

  /** The placeholder cards for lanes 1-4. */
  function Defaults(): (r: map<string, Card>)
    ensures r.Keys == DefaultLanes
    ensures forall l :: l in r ==> r[l] == Placeholder
  {
    map l | l in DefaultLanes :: Placeholder
  }

  /** The body of `latest()` once the snapshot is read: a missing `last10` is
      the empty history, a missing `latest` is the empty object. */
  function LatestView(snapshot: Snapshot): (r: map<string, Card>)
    ensures LastTxnKey in r && DefaultLanes <= r.Keys
    ensures forall l :: l in r && l != LastTxnKey ==>
              r[l] == Placeholder || (r[l].Shown? && r[l].entry.lane == l && r[l].entry in snapshot.last10)
  {
    var lanes := PickFirstPerLane(SortByTxnDesc(snapshot.last10), Defaults(), {});
    PickedFromHistory(snapshot.last10, lanes);
    lanes[LastTxnKey := if snapshot.latest.Some? then Shown(snapshot.latest.value) else EmptyObject]
  }

  /** Each card the loop leaves is a placeholder or a transaction of the history
      under its own lane. */
  lemma PickedFromHistory(s: seq<Transaction>, lanes: map<string, Card>)
    requires lanes == PickFirstPerLane(SortByTxnDesc(s), Defaults(), {})
    ensures forall l :: l in lanes ==>
              lanes[l] == Placeholder || (lanes[l].Shown? && lanes[l].entry.lane == l && lanes[l].entry in s)
  {
    var sorted := SortByTxnDesc(s);
    assert CardsMatchLanes(Defaults());
    forall l | l in lanes && lanes[l] != Placeholder
      ensures lanes[l].Shown? && lanes[l].entry.lane == l && lanes[l].entry in s
    {
      assert lanes[l].entry in multiset(sorted);
    }
  }

  /** Index of the first entry of lane `l`. */
  function FirstOfLane(s: seq<Transaction>, l: string): (i: nat)
    requires l in LanesOf(s)
    ensures i < |s| && s[i].lane == l
    ensures forall j :: 0 <= j < i ==> s[j].lane != l
    decreases |s|
  {
    if s[0].lane == l then 0
    else
      assert l in LanesOf(s[1..]) by {
        var e :| e in s && e.lane == l;
        assert e != s[0];
      }
      FirstOfLane(s[1..], l) + 1
  }

  /** The loop adds exactly the lanes not seen yet. */
  lemma {:induction false} PickFirstPerLaneKeys(s: seq<Transaction>, view: map<string, Card>, seen: set<string>)
    ensures PickFirstPerLane(s, view, seen).Keys == view.Keys + (LanesOf(s) - seen)
    decreases |s|
  {
    if s != [] {
      var e := s[0];
      LanesOfCons(s);
      if e.lane !in seen {
        PickFirstPerLaneKeys(s[1..], view[e.lane := Shown(e)], seen + {e.lane});
      } else {
        PickFirstPerLaneKeys(s[1..], view, seen);
      }
    }
  }

  /** Keys already seen, and keys of no entry, keep their value. */
  lemma {:induction false} PickFirstPerLaneKeeps(s: seq<Transaction>, view: map<string, Card>, seen: set<string>, l: string)
    requires l in view && (l in seen || l !in LanesOf(s))
    ensures l in PickFirstPerLane(s, view, seen) && PickFirstPerLane(s, view, seen)[l] == view[l]
    decreases |s|
  {
    if s != [] {
      var e := s[0];
      LanesOfCons(s);
      if e.lane !in seen {
        PickFirstPerLaneKeeps(s[1..], view[e.lane := Shown(e)], seen + {e.lane}, l);
      } else {
        PickFirstPerLaneKeeps(s[1..], view, seen, l);
      }
    }
  }

  /** A lane not seen yet gets its first entry in the sequence. */
  lemma {:induction false} PickFirstPerLaneFirst(s: seq<Transaction>, view: map<string, Card>, seen: set<string>, l: string)
    requires l in LanesOf(s) && l !in seen
    ensures l in PickFirstPerLane(s, view, seen)
    ensures PickFirstPerLane(s, view, seen)[l] == Shown(s[FirstOfLane(s, l)])
    decreases |s|
  {
    var e := s[0];
    LanesOfCons(s);
    if e.lane == l {
      var v := view[e.lane := Shown(e)];
      PickFirstPerLaneKeeps(s[1..], v, seen + {e.lane}, l);
    } else if e.lane !in seen {
      PickFirstPerLaneFirst(s[1..], view[e.lane := Shown(e)], seen + {e.lane}, l);
    } else {
      PickFirstPerLaneFirst(s[1..], view, seen, l);
    }
  }

  lemma LanesOfCons(s: seq<Transaction>)
    requires s != []
    ensures LanesOf(s) == {s[0].lane} + LanesOf(s[1..])
  {
    assert s == [s[0]] + s[1..];
  }

  /** In a history sorted newest-first, a lane's first entry has that lane's
      highest number. */
  lemma FirstOfLaneIsNewest(s: seq<Transaction>, l: string)
    requires SortedByTxnDesc(s) && l in LanesOf(s)
    ensures forall e :: e in s && e.lane == l ==> e.txn <= s[FirstOfLane(s, l)].txn
  {
  }

  lemma SameElementsSameLanes(a: seq<Transaction>, b: seq<Transaction>)
    requires multiset(a) == multiset(b)
    ensures LanesOf(a) == LanesOf(b)
    ensures forall e :: e in a <==> e in b
  {
    forall e ensures e in a <==> e in b {
      assert e in a <==> e in multiset(a);
      assert e in b <==> e in multiset(b);
    }
  }

  /** The response always holds lanes 1-4, every lane of the history, and
      `lastTxn`, and nothing else. */
  lemma LatestViewKeys(snapshot: Snapshot)
    ensures LatestView(snapshot).Keys == DefaultLanes + LanesOf(snapshot.last10) + {LastTxnKey}
  {
    var sorted := SortByTxnDesc(snapshot.last10);
    PickFirstPerLaneKeys(sorted, Defaults(), {});
    SameElementsSameLanes(sorted, snapshot.last10);
  }

  /** A default lane with no entry in the history keeps its placeholder. */
  lemma LatestViewDefaults(snapshot: Snapshot, l: string)
    requires l in DefaultLanes && l !in LanesOf(snapshot.last10)
    ensures l in LatestView(snapshot) && LatestView(snapshot)[l] == Placeholder
  {
    var sorted := SortByTxnDesc(snapshot.last10);
    SameElementsSameLanes(sorted, snapshot.last10);
    PickFirstPerLaneKeeps(sorted, Defaults(), {}, l);
  }

  /** Every lane of the history (other than the `lastTxn` key itself) shows one of
      that lane's entries with the highest transaction number. */
  lemma LatestLaneIsNewest(snapshot: Snapshot, l: string)
    requires l in LanesOf(snapshot.last10) && l != LastTxnKey
    ensures l in LatestView(snapshot)
    ensures var card := LatestView(snapshot)[l];
            && card.Shown? && card.entry in snapshot.last10 && card.entry.lane == l
            && forall e :: e in snapshot.last10 && e.lane == l ==> e.txn <= card.entry.txn
  {
    var sorted := SortByTxnDesc(snapshot.last10);
    SameElementsSameLanes(sorted, snapshot.last10);
    PickFirstPerLaneFirst(sorted, Defaults(), {}, l);
    FirstOfLaneIsNewest(sorted, l);
  }

  /** `lastTxn` is the snapshot's newest transaction, or `{}` when it has none. */
  lemma LatestViewLastTxn(snapshot: Snapshot)
    ensures LastTxnKey in LatestView(snapshot)
    ensures LatestView(snapshot)[LastTxnKey]
            == if snapshot.latest.Some? then Shown(snapshot.latest.value) else EmptyObject
  {
  }

  /** When transaction numbers are unique, the response does not depend on the
      order of the history. */
  lemma LatestViewOrderIndependent(latest: Option<Transaction>, a: seq<Transaction>, b: seq<Transaction>)
    requires multiset(a) == multiset(b)
    requires UniqueTxns(a)
    ensures LatestView(Snapshot(latest, a)) == LatestView(Snapshot(latest, b))
  {
    var va := LatestView(Snapshot(latest, a));
    var vb := LatestView(Snapshot(latest, b));
    SameElementsSameLanes(a, b);
    LatestViewKeys(Snapshot(latest, a));
    LatestViewKeys(Snapshot(latest, b));
    forall k | k in va ensures va[k] == vb[k] {
      SameCard(latest, a, b, k);
    }
    SameEntries(va, vb);
  }

  lemma SameEntries(x: map<string, Card>, y: map<string, Card>)
    requires x.Keys == y.Keys
    requires forall k :: k in x ==> x[k] == y[k]
    ensures x == y
  {
  }

  /** One key of the response, for two orders of one history. */
  lemma SameCard(latest: Option<Transaction>, a: seq<Transaction>, b: seq<Transaction>, k: string)
    requires multiset(a) == multiset(b)
    requires UniqueTxns(a)
    requires k in LatestView(Snapshot(latest, a))
    ensures var vb := LatestView(Snapshot(latest, b));
            k in vb && LatestView(Snapshot(latest, a))[k] == vb[k]
  {
    SameElementsSameLanes(a, b);
    LatestViewKeys(Snapshot(latest, a));
    LatestViewKeys(Snapshot(latest, b));
    if k == LastTxnKey {
    } else if k in LanesOf(a) {
      SameNewestOfLane(latest, a, b, k);
    } else {
      LatestViewDefaults(Snapshot(latest, a), k);
      LatestViewDefaults(Snapshot(latest, b), k);
    }
  }

  /** With unique numbers, two orders of one history pick the same card for each
      of its lanes. */
  lemma SameNewestOfLane(latest: Option<Transaction>, a: seq<Transaction>, b: seq<Transaction>, l: string)
    requires multiset(a) == multiset(b)
    requires UniqueTxns(a)
    requires l in LanesOf(a) && l != LastTxnKey
    ensures var va := LatestView(Snapshot(latest, a));
            var vb := LatestView(Snapshot(latest, b));
            l in va && l in vb && va[l] == vb[l]
  {
    SameElementsSameLanes(a, b);
    LatestLaneIsNewest(Snapshot(latest, a), l);
    LatestLaneIsNewest(Snapshot(latest, b), l);
    var x := LatestView(Snapshot(latest, a))[l].entry;
    var y := LatestView(Snapshot(latest, b))[l].entry;
    assert y in multiset(a);
    assert x in multiset(b);
  }

  /** The snapshot written right after recording a transaction shows that
      transaction for its lane (and as `lastTxn`). */
  lemma RecordedShownForItsLane(ledger: Ledger, reading: Parser.Reading)
    requires Transactions.Valid(ledger)
    ensures var (next, entry) := Record(ledger, reading);
            && entry.lane in LatestView(SnapshotAfter(next, entry))
            && LatestView(SnapshotAfter(next, entry))[entry.lane] == Shown(entry)
  {
    var (next, entry) := Record(ledger, reading);
    var snapshot := SnapshotAfter(next, entry);
    RecordValid(ledger, reading);
    NewestFirstHead(next.history);
    if entry.lane != LastTxnKey {
      LatestLaneIsNewest(snapshot, entry.lane);
    }
  }

  /** The snapshot written right after recording shows every lane of the new
      history with that lane's newest transaction. */
  lemma RecordedSnapshotShowsNewest(ledger: Ledger, reading: Parser.Reading, l: string)
    requires l in LanesOf(Record(ledger, reading).0.history) && l != LastTxnKey
    ensures var (next, entry) := Record(ledger, reading);
            var view := LatestView(SnapshotAfter(next, entry));
            && l in view && view[l].Shown?
            && view[l].entry in next.history && view[l].entry.lane == l
            && forall e :: e in next.history && e.lane == l ==> e.txn <= view[l].entry.txn
  {
    var (next, entry) := Record(ledger, reading);
    LatestLaneIsNewest(SnapshotAfter(next, entry), l);
  }

  /** In a newest-first history the head has the highest number and numbers are
      unique. */
  lemma NewestFirstHead(h: seq<Transaction>)
    requires h != [] && NewestFirst(h)
    ensures h[0] in h
    ensures forall e :: e in h ==> e.txn <= h[0].txn
    ensures UniqueTxns(h)
  {
    forall e | e in h ensures e.txn <= h[0].txn {
      var k :| 0 <= k < |h| && h[k] == e;
      assert k == 0 || h[0].txn > h[k].txn;
    }
    forall x, y | x in h && y in h && x.txn == y.txn ensures x == y {
      var i :| 0 <= i < |h| && h[i] == x;
      var j :| 0 <= j < |h| && h[j] == y;
      assert !(i < j) && !(j < i);
    }
  }
}

=== FILE: display.dfy ===
/** The display-side decisions of `handle_packet` (listener.py:167-179) and the
    framing and log tag of `send_tcp_message` (listener.py:124-130). */
module Display {
  import opened Radar
  import opened Strings
  import opened Integers

  /** How long a reading stays on the display before it is cleared, in
      milliseconds, by inclusive speed breakpoints 50 / 60 / 80 km/h. */
  function DisplayDurationMs(speed: int): (ms: nat)
    ensures 1500 <= ms <= 4000
    ensures ms == 4000 <==> speed <= 50
    ensures ms == 1500 <==> IsOverspeed(speed)
  {
    if speed <= 50 then 4000
    else if speed <= 60 then 3000
    else if speed <= OverspeedLimit then 2000
    else 1500
  }

  /** Show command for a speed: red flashing (`|7|1|1|1|`) for overspeed, green
      flashing (`|7|2|1|1|`) otherwise. */
  function ShowCommand(speed: int): (cmd: string)
    ensures |cmd| == |IntToString(speed)| + 18
    ensures cmd[0] == '|' && cmd[|cmd| - 1] == '|'
    ensures 'C' !in cmd
  {
    var n := IntToString(speed);
    assert 'C' !in n by {
      forall i | 0 <= i < |n| ensures n[i] != 'C' { }
    }
    "|T|22-18|" + n + (if IsOverspeed(speed) then "|7|1|1|1|" else "|7|2|1|1|")
  }

  /** The command that blanks a display. */
  const ClearCommand: string := "|C|0-0|128-128|"

  const Crlf: string := "\r\n"

  /** `send_tcp_message` terminates a message with CRLF unless it already is. */
  function Frame(message: string): (wire: string)
    ensures EndsWith(wire, Crlf)
    ensures |message| <= |wire| <= |message| + 2 && wire[..|message|] == message
  {
    if EndsWith(message, Crlf) then message else message + Crlf
  }

  /** The tag `send_tcp_message` logs a sent message under. */
  datatype LogTag = DisplayTag | ClearTag

  const ClearMarker: string := "|C|"

  function TagOf(message: string): (tag: LogTag)
    ensures tag == ClearTag <==> exists i :: OccursAt(message, ClearMarker, i)
  {
    ContainsAt(message, ClearMarker);
    if Contains(message, ClearMarker) then ClearTag else DisplayTag
  }

  /** One message transmitted to a display: the endpoint, the bytes on the wire and
      the tag it is logged under. Transport failures are caught and only logged by
      the source, so the model records the attempt. */
  datatype Send = Send(to: Endpoint, wire: string, tag: LogTag)

  function SendTcp(to: Endpoint, message: string): (s: Send)
    ensures s.to == to && EndsWith(s.wire, Crlf)
    ensures |message| <= |s.wire| <= |message| + 2 && s.wire[..|message|] == message
    ensures EndsWith(message, Crlf) ==> s.wire == message
    ensures s.tag == ClearTag <==> exists i :: OccursAt(s.wire, ClearMarker, i)
  {
    var wire := Frame(message);
    Send(to, wire, TagOf(wire))
  }

  /** The duration buckets are exact at the breakpoints. */
  lemma DurationBoundaries()
    ensures DisplayDurationMs(50) == 4000 && DisplayDurationMs(51) == 3000
    ensures DisplayDurationMs(60) == 3000 && DisplayDurationMs(61) == 2000
    ensures DisplayDurationMs(80) == 2000 && DisplayDurationMs(81) == 1500
  {
  }

  /** A faster reading never stays on the display longer. */
  lemma DurationMonotone(slower: int, faster: int)
    requires slower <= faster
    ensures DisplayDurationMs(faster) <= DisplayDurationMs(slower)
  {
  }

  /** Overspeed readings, and only they, get the shortest display time. */
  lemma DurationShortestIffOverspeed(speed: int)
    ensures DisplayDurationMs(speed) == 1500 <==> IsOverspeed(speed)
  {
  }

  /** The red variant is used exactly for overspeed speeds. */
  lemma ShowCommandRedIffOverspeed(speed: int)
    ensures ShowCommand(speed) == "|T|22-18|" + IntToString(speed) + "|7|1|1|1|" <==> IsOverspeed(speed)
    ensures ShowCommand(speed) == "|T|22-18|" + IntToString(speed) + "|7|2|1|1|" <==> !IsOverspeed(speed)
  {
    var prefix := "|T|22-18|" + IntToString(speed);
    var red := prefix + "|7|1|1|1|";
    var green := prefix + "|7|2|1|1|";
    assert red[|prefix| + 3] == '1' && green[|prefix| + 3] == '2';
  }

  /** The show command is a `|`-separated record whose fourth field is the speed
      as `str()` prints it, so the display side can read the speed back with
      `int()`. */
  lemma ShowCommandSpeedRoundTrip(speed: int)
    requires WithinDigitLimit(speed)
    ensures |Split(ShowCommand(speed), '|')| == 9
    ensures ParseInt(Split(ShowCommand(speed), '|')[3]) == Some(speed)
  {
    var fs := ShowFields(speed);
    ShowCommandFields(speed);
    ShowFieldsHaveNoBar(speed);
    SplitJoin(fs, '|');
    assert Split(ShowCommand(speed), '|') == fs;
    assert fs[3] == IntToString(speed);
    ParseIntOfString(speed);
  }

  function ShowFields(speed: int): seq<string>
  {
    ["", "T", "22-18", IntToString(speed), "7", if IsOverspeed(speed) then "1" else "2", "1", "1", ""]
  }

  lemma ShowFieldsHaveNoBar(speed: int)
    ensures forall i :: 0 <= i < |ShowFields(speed)| ==> '|' !in ShowFields(speed)[i]
  {
    var p := IntToString(speed);
    assert '|' !in p by {
      forall i | 0 <= i < |p| ensures p[i] != '|' { }
    }
  }

  lemma ShowCommandFields(speed: int)
    ensures ShowCommand(speed) == Join(ShowFields(speed), '|')
  {
    var v := if IsOverspeed(speed) then "1" else "2";
    JoinNineFields(IntToString(speed), v);
    assert ShowCommand(speed) == "|T|22-18|" + IntToString(speed) + "|7|" + v + "|1|1|";
  }

  lemma JoinNineFields(n: string, v: string)
    ensures Join(["", "T", "22-18", n, "7", v, "1", "1", ""], '|')
            == "|T|22-18|" + n + "|7|" + v + "|1|1|"
  {
    var rest := ["7", v, "1", "1", ""];
    JoinShowTail(v);
    JoinShowHead(n, rest, "7|" + v + "|1|1|");
    assert ["", "T", "22-18", n] + rest == ["", "T", "22-18", n, "7", v, "1", "1", ""];
  }

  lemma JoinShowTail(v: string)
    ensures Join(["7", v, "1", "1", ""], '|') == "7|" + v + "|1|1|"
  {
    JoinPrepend("1", [""], '|');
    JoinPrepend("1", ["1", ""], '|');
    JoinPrepend(v, ["1", "1", ""], '|');
    JoinPrepend("7", [v, "1", "1", ""], '|');
  }

  lemma JoinShowHead(n: string, rest: seq<string>, tail: string)
    requires |rest| >= 1 && Join(rest, '|') == tail
    ensures Join(["", "T", "22-18", n] + rest, '|') == "|T|22-18|" + n + "|" + tail
  {
    JoinPrepend(n, rest, '|');
    JoinPrepend("22-18", [n] + rest, '|');
    JoinPrepend("T", ["22-18"] + ([n] + rest), '|');
    JoinPrepend("", ["T"] + (["22-18"] + ([n] + rest)), '|');
    ShowHeadParts(n, rest);
    ShowHeadText(n, tail);
  }

  lemma ShowHeadParts(n: string, rest: seq<string>)
    ensures [""] + (["T"] + (["22-18"] + ([n] + rest))) == ["", "T", "22-18", n] + rest
  {
  }

  lemma ShowHeadText(n: string, tail: string)
    ensures "" + "|" + ("T" + "|" + ("22-18" + "|" + (n + "|" + tail))) == "|T|22-18|" + n + "|" + tail
  {
  }

  /** Framing only adds CRLF when it is missing, so framing twice is framing once. */
  lemma FrameIdempotent(message: string)
    ensures Frame(Frame(message)) == Frame(message)
  {
  }

  /** A message already ending in CRLF goes out unchanged; any other gets exactly
      CRLF appended. */
  lemma FrameExact(message: string)
    ensures EndsWith(message, Crlf) ==> Frame(message) == message
    ensures !EndsWith(message, Crlf) ==> Frame(message) == message + Crlf
  {
  }

  /** A framed show command is logged as DISPLAY: it has no `C`, so no `|C|`. */
  lemma ShowCommandTaggedDisplay(speed: int)
    ensures TagOf(Frame(ShowCommand(speed))) == DisplayTag
  {
    var m := Frame(ShowCommand(speed));
    assert 'C' !in m;
    assert ClearMarker[1] == 'C';
    ContainsNeedsChar(m, ClearMarker, 'C');
  }

  /** A framed clear command is logged as CLEAR. */
  lemma ClearCommandTaggedClear()
    ensures Frame(ClearCommand) == ClearCommand + Crlf
    ensures TagOf(Frame(ClearCommand)) == ClearTag
  {
    assert OccursAt(Frame(ClearCommand), ClearMarker, 0);
  }

  /** What a lane's clear puts on the wire: the clear command and CRLF, logged as
      CLEAR. */
  lemma ClearSent(to: Endpoint)
    ensures SendTcp(to, ClearCommand) == Send(to, ClearCommand + Crlf, ClearTag)
  {
    ClearCommandTaggedClear();
  }
}

=== FILE: integers.dfy ===
/** Python's `int(text)` (base 10) and `str(n)` for integers: the conversions the
    listener uses to read the speed field and to print it into packets and display
    commands. */
module Integers {
  import opened Radar
  import opened Strings

  predicate IsDigit(c: char)
  {
    '0' <= c <= '9'
  }

  function DigitValue(c: char): nat
    requires IsDigit(c)
  {
    (c as int) - ('0' as int)
  }

  function DigitChar(d: nat): (c: char)
    requires d < 10
    ensures IsDigit(c) && DigitValue(c) == d
  {
    ('0' as int + d) as char
  }

  /** The whitespace `int()` skips around a number: the ASCII space and \t..\r, and
      every non-ASCII character Python counts as whitespace. Unlike `str.strip()`,
      `int()` does not skip the ASCII separators \x1c..\x1f. */
  predicate IsIntSpace(c: char)
  {
    IsSpace(c) && !('\U{1C}' <= c <= '\U{1F}')
  }

  /** A run of decimal digits in which a single `_` may separate two digits, the
      digit syntax `int()` accepts in base 10 (leading zeros allowed). */
  predicate IsDigitRun(s: string)
  {
    && s != []
    && IsDigit(s[0])
    && IsDigit(s[|s| - 1])
    && (forall i :: 0 <= i < |s| ==> IsDigit(s[i]) || s[i] == '_')
    && (forall i, j :: 0 <= i < |s| - 1 && j == i + 1 ==> s[i] != '_' || s[j] != '_')
  }

  /** The value of a digit run, ignoring the separating underscores. */
  function RunValue(s: string): nat
    requires forall i :: 0 <= i < |s| ==> IsDigit(s[i]) || s[i] == '_'
    decreases |s|
  {
    if s == [] then 0
    else if s[|s| - 1] == '_' then RunValue(s[..|s| - 1])
    else RunValue(s[..|s| - 1]) * 10 + DigitValue(s[|s| - 1])
  }

  /** The default of `sys.get_int_max_str_digits()`: `int()` refuses a decimal
      string of more digits than this (and `str()` an int that would print more). */
  const MaxStrDigits: nat := 4300

  /** Number of digits in `s`, not counting the separating underscores. */
  function DigitCount(s: string): nat
    decreases |s|
  {
    if s == [] then 0
    else DigitCount(s[..|s| - 1]) + (if IsDigit(s[|s| - 1]) then 1 else 0)
  }

  function Pow10(k: nat): (p: nat)
    ensures p >= 1
  {
    if k == 0 then 1 else 10 * Pow10(k - 1)
  }

  function Abs(n: int): nat
  {
    if n < 0 then -n else n
  }

  /** `str(n)` stays within the digit limit. */
  predicate WithinDigitLimit(n: int)
  {
    |NatToDigits(Abs(n))| <= MaxStrDigits
  }

  /** A leading `+` or `-`. */
  predicate HasSign(t: string)
  {
    t != [] && (t[0] == '-' || t[0] == '+')
  }

  /** A digit run `int()` reads: the run syntax, and at most `MaxStrDigits`
      digits (underscores are not counted). */
  predicate AcceptedRun(body: string)
  {
    IsDigitRun(body) && DigitCount(body) <= MaxStrDigits
  }

  /** What `int()` accepts once the surrounding whitespace is gone: an optional
      sign followed by an accepted digit run. */
  predicate AcceptedSigned(t: string)
  {
    if HasSign(t) then AcceptedRun(t[1..]) else AcceptedRun(t)
  }

  /** `k` zeros. */
  function Zeros(k: nat): (z: string)
    ensures |z| == k && forall i :: 0 <= i < k ==> z[i] == '0'
  {
    if k == 0 then [] else Zeros(k - 1) + "0"
  }

  /** Python's `int(text)`: surrounding whitespace, one optional sign, then a digit
      run of at most `MaxStrDigits` digits; anything else raises, modelled as
      `None`. */
  function ParseInt(text: string): (r: Option<int>)
    ensures r.Some? <==> AcceptedSigned(Trim(text, IsIntSpace))
    ensures r.Some? ==> WithinDigitLimit(r.value)
    ensures r.Some? ==> var t := Trim(text, IsIntSpace); t != [] && IsDigit(t[|t| - 1])
  {
    ParseSigned(Trim(text, IsIntSpace))
  }

  /** What `int()` accepts once the surrounding whitespace is gone: only digits and
      underscores, after one optional sign, ending in a digit; a negative value
      only after `-`. */
  function ParseSigned(t: string): (r: Option<int>)
    ensures r.Some? <==> AcceptedSigned(t)
    ensures r.Some? ==> WithinDigitLimit(r.value)
    ensures r.Some? ==> t != [] && IsDigit(t[|t| - 1])
    ensures r.Some? ==> forall i :: 0 <= i < |t| ==>
              IsDigit(t[i]) || t[i] == '_' || (i == 0 && (t[i] == '-' || t[i] == '+'))
    ensures r.Some? && r.value < 0 ==> t[0] == '-'
  {
    if HasSign(t) then
      match ReadRun(t[1..])
      case None => None
      case Some(v) =>
        var n: int := if t[0] == '-' then -(v as int) else v;
        assert Abs(n) == v;
        Some(n)
    else ReadRun(t)
  }

  /** The value of a digit run within the digit limit. */
  function ReadRun(body: string): (r: Option<nat>)
    ensures r.Some? <==> AcceptedRun(body)
    ensures r.Some? ==> |NatToDigits(r.value)| <= MaxStrDigits
  {
    if IsDigitRun(body) && DigitCount(body) <= MaxStrDigits then
      RunValueBound(body);
      DigitsLength(RunValue(body), DigitCount(body));
      Some(RunValue(body))
    else None
  }

  /** A digit run of k digits is worth less than 10^k. */
  lemma {:induction false} RunValueBound(s: string)
    requires forall i :: 0 <= i < |s| ==> IsDigit(s[i]) || s[i] == '_'
    ensures RunValue(s) < Pow10(DigitCount(s))
    ensures s != [] && IsDigit(s[|s| - 1]) ==> DigitCount(s) >= 1
    decreases |s|
  {
    if s != [] {
      var init := s[..|s| - 1];
      RunValueBound(init);
      if IsDigit(s[|s| - 1]) {
        var p := Pow10(DigitCount(init));
        assert RunValue(init) <= p - 1;
        assert RunValue(s) <= (p - 1) * 10 + 9;
        assert Pow10(DigitCount(s)) == 10 * p;
      }
    }
  }

  /** A number below 10^k prints in at most k digits. */
  lemma {:induction false} DigitsLength(n: nat, k: nat)
    requires k >= 1 && n < Pow10(k)
    ensures |NatToDigits(n)| <= k
    decreases n
  {
    if n >= 10 {
      assert Pow10(1) == 10;
      assert k >= 2;
      assert n / 10 < Pow10(k - 1);
      DigitsLength(n / 10, k - 1);
    }
  }

  /** A string of digits only has as many digits as characters. */
  lemma {:induction false} DigitCountOfDigits(s: string)
    requires forall i :: 0 <= i < |s| ==> IsDigit(s[i])
    ensures DigitCount(s) == |s|
    decreases |s|
  {
    if s != [] {
      DigitCountOfDigits(s[..|s| - 1]);
    }
  }

  /** Decimal digits of a natural number, most significant first, no leading zero. */
  function NatToDigits(n: nat): (s: string)
    ensures s != [] && forall i :: 0 <= i < |s| ==> IsDigit(s[i])
    ensures s[0] == '0' ==> n == 0
    ensures |s| > 1 ==> s[0] != '0'
    decreases n
  {
    if n < 10 then [DigitChar(n)] else NatToDigits(n / 10) + [DigitChar(n % 10)]
  }

  /** Python's `str(n)` for an int. */
  function IntToString(n: int): (s: string)
    ensures s != [] && IsDigit(s[|s| - 1])
    ensures forall i :: 0 <= i < |s| ==> IsDigit(s[i]) || (i == 0 && s[i] == '-')
    ensures s[0] == '-' <==> n < 0
    ensures var d := if n < 0 then s[1..] else s; d != [] && (|d| > 1 ==> d[0] != '0')
  {
    if n < 0 then "-" + NatToDigits(-n) else NatToDigits(n)
  }

  /** Reading back the digits of `n` gives `n`. */
  lemma {:induction false} RunValueOfDigits(n: nat)
    ensures IsDigitRun(NatToDigits(n))
    ensures RunValue(NatToDigits(n)) == n
    decreases n
  {
    var s := NatToDigits(n);
    if n >= 10 {
      RunValueOfDigits(n / 10);
      assert s[..|s| - 1] == NatToDigits(n / 10);
    }
  }

  /** `int(str(n)) == n`. */
  lemma ParseIntOfString(n: int)
    requires WithinDigitLimit(n)
    ensures ParseInt(IntToString(n)) == Some(n)
  {
    var s := IntToString(n);
    TrimUnpadded(s, IsIntSpace);
    ParseIntOfTrimmed(s, n);
  }

  /** `int()` ignores whitespace around the printed form of a number:
      `int(" \t" + str(n) + " ") == n`. */
  lemma ParseIntOfPaddedString(a: string, n: int, b: string)
    requires AllOf(a, IsIntSpace) && AllOf(b, IsIntSpace)
    requires WithinDigitLimit(n)
    ensures ParseInt(a + IntToString(n) + b) == Some(n)
  {
    var s := IntToString(n);
    assert !IsIntSpace(s[0]) && !IsIntSpace(s[|s| - 1]);
    TrimPadded(a, s, b, IsIntSpace);
    ParseIntOfTrimmed(a + s + b, n);
  }

  lemma ParseIntOfTrimmed(text: string, n: int)
    requires Trim(text, IsIntSpace) == IntToString(n)
    requires WithinDigitLimit(n)
    ensures ParseInt(text) == Some(n)
  {
    ParseSignedOfString(n);
  }

  /** The printed form of `n`, without any padding, reads back as `n`. */
  lemma ParseSignedOfString(n: int)
    requires WithinDigitLimit(n)
    ensures ParseSigned(IntToString(n)) == Some(n)
  {
    var t := IntToString(n);
    RunValueOfDigits(Abs(n));
    DigitCountOfDigits(NatToDigits(Abs(n)));
    if n < 0 {
      assert t[1..] == NatToDigits(-n);
    } else {
      assert t[0] != '-' && t[0] != '+';
    }
  }

  /** The other side of the digit limit: `int()` rejects the printed form of a
      number of more than `MaxStrDigits` digits. */
  lemma LongNumberRejected(n: int)
    requires !WithinDigitLimit(n)
    ensures ParseInt(IntToString(n)) == None
  {
    var t := IntToString(n);
    var d := NatToDigits(Abs(n));
    TrimUnpadded(t, IsIntSpace);
    DigitCountOfDigits(d);
    assert !AcceptedRun(d);
    if n < 0 {
      assert t[1..] == d;
    } else {
      assert t == d && !HasSign(t);
    }
    assert !AcceptedSigned(t);
  }

  /** A run of zeros is worth 0. */
  lemma {:induction false} RunValueOfZeros(k: nat)
    ensures RunValue(Zeros(k)) == 0
  {
    if k > 0 {
      var z := Zeros(k);
      assert z[..k - 1] == Zeros(k - 1);
      RunValueOfZeros(k - 1);
      assert z[k - 1] == '0' && DigitValue('0') == 0;
      assert RunValue(z) == RunValue(z[..k - 1]) * 10 + DigitValue(z[k - 1]);
    }
  }

  /** Leading zeros do not change the value of a run. */
  lemma {:induction false} RunValueLeadingZeros(k: nat, s: string)
    requires forall i :: 0 <= i < |s| ==> IsDigit(s[i]) || s[i] == '_'
    ensures forall i :: 0 <= i < |Zeros(k) + s| ==> IsDigit((Zeros(k) + s)[i]) || (Zeros(k) + s)[i] == '_'
    ensures RunValue(Zeros(k) + s) == RunValue(s)
    decreases |s|
  {
    var z := Zeros(k) + s;
    assert forall i :: 0 <= i < |z| ==> IsDigit(z[i]) || z[i] == '_' by {
      forall i | 0 <= i < |z| ensures IsDigit(z[i]) || z[i] == '_' {
        if i >= k {
          assert z[i] == s[i - k];
        }
      }
    }
    if s == [] {
      assert z == Zeros(k);
      RunValueOfZeros(k);
    } else {
      var s' := s[..|s| - 1];
      assert z[..|z| - 1] == Zeros(k) + s';
      RunValueLeadingZeros(k, s');
    }
  }

  /** `int()` reads an optional sign, any number of leading zeros and the digits
      of `n`, inside any `int()` whitespace, as `n` (negated after `-`), as long as
      the digits, zeros included, stay within the limit: `int(" +0095 ") == 95`. */
  lemma ParseIntOfZeroPadded(a: string, sign: string, k: nat, n: nat, b: string)
    requires AllOf(a, IsIntSpace) && AllOf(b, IsIntSpace)
    requires sign == "" || sign == "+" || sign == "-"
    requires k + |IntToString(n)| <= MaxStrDigits
    ensures ParseInt(a + sign + Zeros(k) + IntToString(n) + b) == Some(if sign == "-" then -(n as int) else n)
  {
    var body := Zeros(k) + NatToDigits(n);
    ZeroPaddedRun(k, n);
    SignedRead(sign, body, n);
    var t := sign + body;
    assert IntToString(n) == NatToDigits(n);
    Reassociate(a, sign, Zeros(k), IntToString(n), b);
    TrimPadded(a, t, b, IsIntSpace);
    assert ParseInt(a + t + b) == ParseSigned(t);
  }

  lemma Reassociate(a: string, sign: string, z: string, d: string, b: string)
    ensures a + sign + z + d + b == a + (sign + (z + d)) + b
  {
  }

  /** Zeros followed by the digits of `n` form an accepted run worth `n`, within
      the limit. */
  lemma ZeroPaddedRun(k: nat, n: nat)
    requires k + |NatToDigits(n)| <= MaxStrDigits
    ensures var body := Zeros(k) + NatToDigits(n);
            && body != [] && IsDigit(body[0]) && IsDigit(body[|body| - 1])
            && ReadRun(body) == Some(n)
  {
    var d := NatToDigits(n);
    var body := Zeros(k) + d;
    AllDigitsAfterZeros(k, d);
    assert body[|body| - 1] == d[|d| - 1];
    DigitCountOfDigits(body);
    assert IsDigitRun(body);
    RunValueLeadingZeros(k, d);
    RunValueOfDigits(n);
    assert RunValue(body) == n;
  }

  lemma AllDigitsAfterZeros(k: nat, d: string)
    requires forall i :: 0 <= i < |d| ==> IsDigit(d[i])
    ensures forall i :: 0 <= i < |Zeros(k) + d| ==> IsDigit((Zeros(k) + d)[i])
  {
    var body := Zeros(k) + d;
    forall i | 0 <= i < |body| ensures IsDigit(body[i]) {
      if i >= k {
        assert body[i] == d[i - k];
      }
    }
  }

  /** A sign in front of an accepted run starting and ending in a digit: the text is
      not padded, and reads as the run's value, negated after `-`. */
  lemma SignedRead(sign: string, body: string, n: nat)
    requires sign == "" || sign == "+" || sign == "-"
    requires body != [] && IsDigit(body[0]) && IsDigit(body[|body| - 1])
    requires ReadRun(body) == Some(n)
    ensures var t := sign + body;
            && t != [] && !IsIntSpace(t[0]) && !IsIntSpace(t[|t| - 1])
            && ParseSigned(t) == Some(if sign == "-" then -(n as int) else n)
  {
    var t := sign + body;
    assert t[|t| - 1] == body[|body| - 1];
    if sign == "" {
      assert t == body;
    } else {
      assert t[1..] == body;
    }
  }

  /** Removing the `_` between two digit runs keeps a digit run, and so does
      keeping it. */
  lemma JoinedRuns(x: string, y: string)
    requires IsDigitRun(x) && IsDigitRun(y)
    ensures IsDigitRun(x + y) && IsDigitRun(x + "_" + y)
  {
    var u := x + "_" + y;
    forall i, j | 0 <= i < |u| - 1 && j == i + 1 ensures u[i] != '_' || u[j] != '_' {
      if i < |x| - 1 {
        assert u[i] == x[i] && u[j] == x[i + 1];
      } else if i == |x| - 1 {
        assert u[i] == x[|x| - 1];
      } else if i == |x| {
        assert u[j] == y[0];
      } else {
        assert u[i] == y[i - |x| - 1] && u[j] == y[i - |x|];
      }
    }
    var v := x + y;
    forall i, j | 0 <= i < |v| - 1 && j == i + 1 ensures v[i] != '_' || v[j] != '_' {
      if i < |x| - 1 {
        assert v[i] == x[i] && v[j] == x[i + 1];
      } else if i == |x| - 1 {
        assert v[i] == x[|x| - 1];
      } else {
        assert v[i] == y[i - |x|] && v[j] == y[i - |x| + 1];
      }
    }
  }

  /** An underscore adds no digit and no value. */
  lemma {:induction false} UnderscoreNeutral(x: string, y: string)
    requires forall i :: 0 <= i < |x| ==> IsDigit(x[i]) || x[i] == '_'
    requires forall i :: 0 <= i < |y| ==> IsDigit(y[i]) || y[i] == '_'
    ensures forall i :: 0 <= i < |x + "_" + y| ==> IsDigit((x + "_" + y)[i]) || (x + "_" + y)[i] == '_'
    ensures forall i :: 0 <= i < |x + y| ==> IsDigit((x + y)[i]) || (x + y)[i] == '_'
    ensures RunValue(x + "_" + y) == RunValue(x + y)
    ensures DigitCount(x + "_" + y) == DigitCount(x + y)
    decreases |y|
  {
    var u := x + "_" + y;
    var v := x + y;
    assert forall i :: 0 <= i < |u| ==> IsDigit(u[i]) || u[i] == '_' by {
      forall i | 0 <= i < |u| ensures IsDigit(u[i]) || u[i] == '_' {
        if i > |x| {
          assert u[i] == y[i - |x| - 1];
        }
      }
    }
    assert forall i :: 0 <= i < |v| ==> IsDigit(v[i]) || v[i] == '_' by {
      forall i | 0 <= i < |v| ensures IsDigit(v[i]) || v[i] == '_' {
        if i >= |x| {
          assert v[i] == y[i - |x|];
        }
      }
    }
    if y == [] {
      assert u[..|u| - 1] == x;
      assert v == x;
    } else {
      var y' := y[..|y| - 1];
      assert u[..|u| - 1] == x + "_" + y';
      assert v[..|v| - 1] == x + y';
      UnderscoreNeutral(x, y');
    }
  }

  /** One `_` between two digit runs changes neither what `int()` accepts nor the
      value it reads: `int("1_000") == int("1000")`. */
  lemma ParseIntUnderscore(x: string, y: string)
    requires IsDigitRun(x) && IsDigitRun(y)
    ensures ParseInt(x + "_" + y) == ParseInt(x + y)
  {
    var u := x + "_" + y;
    var v := x + y;
    JoinedRuns(x, y);
    UnderscoreNeutral(x, y);
    assert u[0] == x[0] && v[0] == x[0];
    assert u[|u| - 1] == y[|y| - 1] && v[|v| - 1] == y[|y| - 1];
    TrimUnpadded(u, IsIntSpace);
    TrimUnpadded(v, IsIntSpace);
    assert !HasSign(u) && !HasSign(v);
    assert ParseInt(u) == ReadRun(u) && ParseInt(v) == ReadRun(v);
  }
}

=== FILE: lane_timers.dfy ===
/** The lane timer table of `reset_lane_timer` (listener.py:139-145): each lane has
    at most one pending auto-clear; arming a lane cancels the pending one and
    installs a fresh one. Only the sequential effect of one arm or one firing is
    modelled; ids stand for the distinct `threading.Timer` objects. */
module LaneTimers {
  import opened Radar
  import opened Display

  /** An armed clear: after `delayMs` it sends `message` to `to`, unless cancelled. */
  datatype Timer = Timer(id: nat, lane: string, to: Endpoint, delayMs: nat, message: string)

  /** `pending` maps each lane to its live timer; `cancelled` holds the ids of every
      timer that has been cancelled; `nextId` is the id the next timer gets. */
  datatype Table = Table(pending: map<string, Timer>, cancelled: set<nat>, nextId: nat)

  const EmptyTable: Table := Table(map[], {}, 0)

  /** A lane's state: no live timer, or one armed timer. */
  datatype Phase = Idle | Armed(timer: Timer)

  function PhaseOf(table: Table, lane: string): Phase
  {
    if lane in table.pending then Armed(table.pending[lane]) else Idle
  }

  /** The table's invariant: each pending timer is filed under its own lane, is not
      cancelled, has an id already handed out, and no two lanes share a timer. */
  ghost predicate Valid(table: Table)
  {
    && (forall l :: l in table.pending ==>
          && table.pending[l].lane == l
          && table.pending[l].id < table.nextId
          && table.pending[l].id !in table.cancelled)
    && (forall l, m :: l in table.pending && m in table.pending && l != m ==>
          table.pending[l].id != table.pending[m].id)
    && (forall id :: id in table.cancelled ==> id < table.nextId)
  }

  /** `reset_lane_timer`: cancel the lane's pending timer if there is one, then
      install and start a fresh one. */
  function Arm(table: Table, lane: string, to: Endpoint, delayMs: nat, message: string): (r: (Table, Timer))
    ensures r.1 == Timer(r.1.id, lane, to, delayMs, message)
    ensures PhaseOf(r.0, lane) == Armed(r.1)
    ensures forall l :: l != lane ==> PhaseOf(r.0, l) == PhaseOf(table, l)
    ensures lane in table.pending ==> r.0.cancelled == table.cancelled + {table.pending[lane].id}
    ensures lane !in table.pending ==> r.0.cancelled == table.cancelled
    ensures Valid(table) ==> r.1.id !in table.cancelled && forall l :: l in table.pending ==> table.pending[l].id != r.1.id
  {
    var cancelled := if lane in table.pending then table.cancelled + {table.pending[lane].id} else table.cancelled;
    var timer := Timer(table.nextId, lane, to, delayMs, message);
    (Table(table.pending[lane := timer], cancelled, table.nextId + 1), timer)
  }

  /** `timer`'s delay has elapsed: its clear is sent only if it is still its lane's
      pending timer (it was neither cancelled nor fired before), and the lane goes
      back to idle. */
  function Fire(table: Table, timer: Timer): (r: (Table, Option<Send>))
    ensures r.1.Some? <==> PhaseOf(table, timer.lane) == Armed(timer)
    ensures r.1.Some? ==> r.1.value == SendTcp(timer.to, timer.message) && PhaseOf(r.0, timer.lane) == Idle
    ensures r.1.None? ==> r.0 == table
    ensures forall l :: l != timer.lane ==> PhaseOf(r.0, l) == PhaseOf(table, l)
    ensures r.0.cancelled == table.cancelled
  {
    if timer.lane in table.pending && table.pending[timer.lane] == timer then
      (table.(pending := table.pending - {timer.lane}), Some(SendTcp(timer.to, timer.message)))
    else
      (table, None)
  }

  lemma EmptyValid()
    ensures Valid(EmptyTable)
  {
  }

  lemma {:induction false} ArmValid(table: Table, lane: string, to: Endpoint, delayMs: nat, message: string)
    requires Valid(table)
    ensures Valid(Arm(table, lane, to, delayMs, message).0)
  {
    var (t, timer) := Arm(table, lane, to, delayMs, message);
    forall l | l in t.pending
      ensures t.pending[l].lane == l && t.pending[l].id < t.nextId && t.pending[l].id !in t.cancelled
    {
      if l != lane {
        assert t.pending[l] == table.pending[l];
        if lane in table.pending {
          assert table.pending[l].id != table.pending[lane].id;
        }
      }
    }
  }

  lemma FireValid(table: Table, timer: Timer)
    requires Valid(table)
    ensures Valid(Fire(table, timer).0)
  {
  }

  /** A cancelled timer never sends its clear. */
  lemma CancelledNeverFires(table: Table, timer: Timer)
    requires Valid(table)
    requires timer.id in table.cancelled
    ensures Fire(table, timer).1 == None
  {
  }

  /** Re-arming a lane cancels its previous timer, which stays silent from then on,
      while the new timer fires with its own clear. */
  lemma {:induction false} RearmSupersedes(table: Table, lane: string, to: Endpoint, delayMs: nat, message: string)
    requires Valid(table)
    requires lane in table.pending
    ensures var (t, timer) := Arm(table, lane, to, delayMs, message);
            && table.pending[lane].id in t.cancelled
            && Fire(t, table.pending[lane]).1 == None
            && Fire(t, timer).1 == Some(SendTcp(to, message))
  {
    var (t, timer) := Arm(table, lane, to, delayMs, message);
    ArmValid(table, lane, to, delayMs, message);
    CancelledNeverFires(t, table.pending[lane]);
  }

  /** A timer sends at most one clear: once it has fired, firing it again does
      nothing. */
  lemma FiresAtMostOnce(table: Table, timer: Timer)
    ensures Fire(Fire(table, timer).0, timer).1 == None
  {
  }
}

=== FILE: listener.dfy ===
/** `handle_packet` (listener.py:148-183) as a step function over the listener's
    sequential state, and the decisions of the manual entry loop
    (listener.py:208-227). Logging, the snapshot file, the database and the
    sockets are effects the step reports rather than performs. */
module Listener {
  import opened Radar
  import opened Strings
  import opened Integers
  import opened Parser
  import opened Display
  import opened Transactions
  import opened LaneTimers

  /** The state the listener mutates: the sequencer and the lane timer table. */
  datatype State = State(ledger: Ledger, timers: Table)

  /** The observable effects of handling one line: the transaction recorded, the
      snapshot written, whether the database insert was attempted, the messages
      sent, and the clear timer armed. */
  datatype Outcome = Outcome(
    recorded: Option<Transaction>,
    snapshot: Option<Snapshot>,
    persisted: bool,
    sends: seq<Send>,
    armed: Option<Timer>)

  const Ignored: Outcome := Outcome(None, None, false, [], None)

  /** The listener after `init_db` seeded the counter from the store (or left it
      at 0 when that failed): an empty history and no lane armed. */
  function Start(read: StoreRead): (st: State)
    ensures Valid(st)
    ensures st.ledger.history == [] && forall l :: PhaseOf(st.timers, l) == Idle
    ensures read.MaxTxnNo? ==> st.ledger.counter == read.value
    ensures read.InitFailed? ==> st.ledger.counter == 0
  {
    EmptyValid();
    State(Seed(read), EmptyTable)
  }

  ghost predicate Valid(st: State)
  {
    Transactions.Valid(st.ledger) && LaneTimers.Valid(st.timers)
  }

  /** Handles one line. `registry` is the lane -> display map; `receivedAt` is the
      formatted receipt time; `snapshotOk` says whether writing the snapshot file
      succeeded (if it raises, the handler's catch-all skips the database insert
      and the dispatch that follow, but the counter and history are already
      updated). */
  function HandlePacket(st: State, registry: map<string, Endpoint>, text: string,
                        receivedAt: string, snapshotOk: bool): (r: (State, Outcome))
    ensures r.1.sends != [] ==> r.1.recorded.Some? && r.1.recorded.value.lane in registry
    ensures r.1.armed.Some? <==> r.1.sends != []
    ensures |r.1.sends| <= 1
  {
    HandleReading(st, registry, Parse(text, receivedAt), snapshotOk)
  }

  /** What `handle_packet` does once the line is parsed (listener.py:165-183). */
  function HandleReading(st: State, registry: map<string, Endpoint>, parsed: Option<Reading>,
                         snapshotOk: bool): (r: (State, Outcome))
    ensures r.1.sends != [] ==> r.1.recorded.Some? && r.1.recorded.value.lane in registry
    ensures r.1.armed.Some? <==> r.1.sends != []
    ensures |r.1.sends| <= 1
  {
    match parsed
    case None => (st, Ignored)
    case Some(reading) =>
      var (ledger, entry) := Record(st.ledger, reading);
      if !snapshotOk then
        (st.(ledger := ledger), Outcome(Some(entry), None, false, [], None))
      else
        var snapshot := SnapshotAfter(ledger, entry);
        var duration := DisplayDurationMs(reading.speed);
        var show := ShowCommand(reading.speed);
        if reading.lane in registry then
          var to := registry[reading.lane];
          var (timers, timer) := Arm(st.timers, reading.lane, to, duration, ClearCommand);
          (State(ledger, timers), Outcome(Some(entry), Some(snapshot), true, [SendTcp(to, show)], Some(timer)))
        else
          (st.(ledger := ledger), Outcome(Some(entry), Some(snapshot), true, [], None))
  }

  /** A lane's clear timer elapsing. */
  function FireTimer(st: State, timer: Timer): (r: (State, Option<Send>))
    ensures r.0.ledger == st.ledger
    ensures r.1.Some? <==> PhaseOf(st.timers, timer.lane) == Armed(timer)
    ensures r.1.Some? ==> r.1.value == SendTcp(timer.to, timer.message) && PhaseOf(r.0.timers, timer.lane) == Idle
    ensures forall l :: l != timer.lane ==> PhaseOf(r.0.timers, l) == PhaseOf(st.timers, l)
  {
    var (timers, sent) := Fire(st.timers, timer);
    (st.(timers := timers), sent)
  }

  /** Handling a line keeps the listener's invariant. */
  lemma HandleValid(st: State, registry: map<string, Endpoint>, text: string,
                    receivedAt: string, snapshotOk: bool)
    requires Valid(st)
    ensures Valid(HandlePacket(st, registry, text, receivedAt, snapshotOk).0)
  {
    match Parse(text, receivedAt)
    case None =>
    case Some(reading) =>
      RecordValid(st.ledger, reading);
      if reading.lane in registry {
        ArmValid(st.timers, reading.lane, registry[reading.lane],
                 DisplayDurationMs(reading.speed), ClearCommand);
      }
  }

  lemma ReadingValid(st: State, registry: map<string, Endpoint>, reading: Reading, snapshotOk: bool)
    requires Valid(st)
    ensures Valid(HandleReading(st, registry, Some(reading), snapshotOk).0)
  {
    RecordValid(st.ledger, reading);
    if reading.lane in registry {
      ArmValid(st.timers, reading.lane, registry[reading.lane],
               DisplayDurationMs(reading.speed), ClearCommand);
    }
  }

  lemma FireValid(st: State, timer: Timer)
    requires Valid(st)
    ensures Valid(FireTimer(st, timer).0)
  {
    LaneTimers.FireValid(st.timers, timer);
  }

  /** A lane's clear goes out at most once: after a timer has fired, firing it
      again sends nothing. */
  lemma ClearSentOnce(st: State, timer: Timer)
    ensures FireTimer(FireTimer(st, timer).0, timer).1 == None
  {
  }

  /** A line the parser rejects changes nothing: no transaction, no send, no
      timer. */
  lemma RejectedLineIgnored(st: State, registry: map<string, Endpoint>, text: string,
                            receivedAt: string, snapshotOk: bool)
    requires Parse(text, receivedAt).None?
    ensures HandlePacket(st, registry, text, receivedAt, snapshotOk) == (st, Ignored)
  {
  }

  /** In particular a line with fewer than four fields, such as `A,1`. */
  lemma ShortLineIgnored(st: State, registry: map<string, Endpoint>, receivedAt: string, snapshotOk: bool)
    ensures HandlePacket(st, registry, "A,1", receivedAt, snapshotOk) == (st, Ignored)
  {
    assert Count("A,1", FieldSeparator) == 1;
    ShortLineRejected("A,1", receivedAt);
  }

  /** An accepted reading is always recorded, numbered one past the counter, with
      the overspeed flag of its speed, and the history gets it at the front. */
  lemma AcceptedRecorded(st: State, registry: map<string, Endpoint>, text: string,
                         receivedAt: string, snapshotOk: bool)
    requires Parse(text, receivedAt).Some?
    ensures var reading := Parse(text, receivedAt).value;
            var (st', out) := HandlePacket(st, registry, text, receivedAt, snapshotOk);
            && out.recorded == Some(Transaction(st.ledger.counter + 1, reading.lane, reading.speed,
                                                reading.observedAt, IsOverspeed(reading.speed)))
            && st'.ledger.counter == st.ledger.counter + 1
            && st'.ledger.history[0] == out.recorded.value
            && st'.ledger == Record(st.ledger, reading).0
            && (snapshotOk ==> out.persisted && out.snapshot == Some(Snapshot(out.recorded, st'.ledger.history)))
  {
    ReadingRecorded(st, registry, Parse(text, receivedAt).value, snapshotOk);
  }

  lemma ReadingRecorded(st: State, registry: map<string, Endpoint>, reading: Reading, snapshotOk: bool)
    ensures var (st', out) := HandleReading(st, registry, Some(reading), snapshotOk);
            && out.recorded == Some(Transaction(st.ledger.counter + 1, reading.lane, reading.speed,
                                                reading.observedAt, IsOverspeed(reading.speed)))
            && st'.ledger.counter == st.ledger.counter + 1
            && st'.ledger.history[0] == out.recorded.value
            && st'.ledger == Record(st.ledger, reading).0
            && (snapshotOk ==> out.persisted && out.snapshot == Some(Snapshot(out.recorded, st'.ledger.history)))
  {
    var (ledger, entry) := Record(st.ledger, reading);
    var r := HandleReading(st, registry, Some(reading), snapshotOk);
    assert r.0.ledger == ledger && r.1.recorded == Some(entry);
  }

  /** A reading for a registered lane (with the snapshot written) sends one show
      command to that lane's display, red exactly when the recorded transaction is
      overspeed, and arms that lane's clear for the speed's duration. */
  lemma RegisteredLaneDispatched(st: State, registry: map<string, Endpoint>, text: string, receivedAt: string)
    requires Parse(text, receivedAt).Some? && Parse(text, receivedAt).value.lane in registry
    ensures var reading := Parse(text, receivedAt).value;
            var to := registry[reading.lane];
            var (st', out) := HandlePacket(st, registry, text, receivedAt, true);
            && out.persisted
            && out.sends == [Send(to, ShowCommand(reading.speed) + Crlf, DisplayTag)]
            && (out.recorded.value.overspeed <==>
                ShowCommand(reading.speed) == "|T|22-18|" + IntToString(reading.speed) + "|7|1|1|1|")
            && out.armed == Some(Timer(out.armed.value.id, reading.lane, to,
                                       DisplayDurationMs(reading.speed), ClearCommand))
            && PhaseOf(st'.timers, reading.lane) == Armed(out.armed.value)
            && (forall l :: l != reading.lane ==> PhaseOf(st'.timers, l) == PhaseOf(st.timers, l))
  {
    var reading := Parse(text, receivedAt).value;
    ReadingDispatched(st, registry, reading);
  }

  lemma ReadingDispatched(st: State, registry: map<string, Endpoint>, reading: Reading)
    requires reading.lane in registry
    ensures var to := registry[reading.lane];
            var (st', out) := HandleReading(st, registry, Some(reading), true);
            && out.persisted
            && out.sends == [Send(to, ShowCommand(reading.speed) + Crlf, DisplayTag)]
            && (out.recorded.value.overspeed <==>
                ShowCommand(reading.speed) == "|T|22-18|" + IntToString(reading.speed) + "|7|1|1|1|")
            && out.armed == Some(Timer(out.armed.value.id, reading.lane, to,
                                       DisplayDurationMs(reading.speed), ClearCommand))
            && PhaseOf(st'.timers, reading.lane) == Armed(out.armed.value)
            && (forall l :: l != reading.lane ==> PhaseOf(st'.timers, l) == PhaseOf(st.timers, l))
  {
    ShowCommandTaggedDisplay(reading.speed);
    ShowCommandRedIffOverspeed(reading.speed);
    var show := ShowCommand(reading.speed);
    assert show[|show| - 1] == '|';
    FrameExact(show);
  }

  /** A reading for a lane without a display is recorded, but nothing is sent and
      no timer is touched. */
  lemma UnregisteredLaneNotDispatched(st: State, registry: map<string, Endpoint>, text: string,
                                     receivedAt: string, snapshotOk: bool)
    requires Parse(text, receivedAt).Some? && Parse(text, receivedAt).value.lane !in registry
    ensures var (st', out) := HandlePacket(st, registry, text, receivedAt, snapshotOk);
            && out.recorded.Some?
            && out.persisted == snapshotOk
            && (snapshotOk ==> out.snapshot.Some?)
            && out.sends == [] && out.armed == None
            && st'.timers == st.timers
  {
  }

  /** When the snapshot file cannot be written the transaction is still counted and
      kept in the history, but neither stored nor dispatched. */
  lemma SnapshotFailureSkipsDispatch(st: State, registry: map<string, Endpoint>, text: string, receivedAt: string)
    requires Parse(text, receivedAt).Some?
    ensures var (st', out) := HandlePacket(st, registry, text, receivedAt, false);
            && out.recorded.Some? && st'.ledger.counter == st.ledger.counter + 1
            && !out.persisted && out.sends == [] && st'.timers == st.timers
  {
  }

  /** What handling the overspeed example produces: transaction {lane 2, speed 95,
      overspeed}, the red show command sent to `to`, and a 1.5 s clear armed. */
  ghost predicate ExampleOutcome(out: Outcome, to: Endpoint)
  {
    && out.recorded.Some?
    && out.recorded.value.lane == "2" && out.recorded.value.speed == 95 && out.recorded.value.overspeed
    && out.recorded.value.timestamp == "2024-01-01 10:00:00"
    && out.sends == [Send(to, "|T|22-18|95|7|1|1|1|\r\n", DisplayTag)]
    && out.armed.Some? && out.armed.value.delayMs == 1500
    && out.armed.value.lane == "2" && out.armed.value.to == to
    && out.armed.value.message == "|C|0-0|128-128|"
  }

  /** The overspeed example: `MZ,0,2,95,2024-01-01 10:00:00,1,` with lane 2 at
      10.0.0.5:4001 records {lane 2, speed 95, overspeed}, sends the red show
      command there and arms a 1.5 s clear. */
  lemma OverspeedExample(st: State, receivedAt: string)
    ensures var to := Endpoint("10.0.0.5", 4001);
            ExampleOutcome(HandlePacket(st, map["2" := to], "MZ,0,2,95,2024-01-01 10:00:00,1,", receivedAt, true).1, to)
  {
    var to := Endpoint("10.0.0.5", 4001);
    var line := "MZ,0,2,95,2024-01-01 10:00:00,1,";
    var reading := Reading("2", 95, "2024-01-01 10:00:00");
    ExampleLine();
    TrimUnpadded("2", IsSpace);
    ExampleSpeedText();
    ManualPacketRoundTrip("2", 95, "2024-01-01 10:00:00", receivedAt);
    ExampleReading(st, to);
    HandleParsed(st, map["2" := to], line, receivedAt, true, reading);
  }

  lemma HandleParsed(st: State, registry: map<string, Endpoint>, text: string,
                     receivedAt: string, snapshotOk: bool, reading: Reading)
    requires Parse(text, receivedAt) == Some(reading)
    ensures HandlePacket(st, registry, text, receivedAt, snapshotOk)
            == HandleReading(st, registry, Some(reading), snapshotOk)
  {
  }

  lemma ExampleReading(st: State, to: Endpoint)
    ensures ExampleOutcome(HandleReading(st, map["2" := to], Some(Reading("2", 95, "2024-01-01 10:00:00")), true).1, to)
  {
    var reading := Reading("2", 95, "2024-01-01 10:00:00");
    ReadingDispatched(st, map["2" := to], reading);
    ReadingRecorded(st, map["2" := to], reading, true);
    ExampleShowCommand();
  }

  lemma ExampleSpeedText()
    ensures IntToString(95) == "95"
  {
    assert NatToDigits(9) == "9";
    assert NatToDigits(95) == NatToDigits(9) + "5";
  }

  lemma ExampleLine()
    ensures ManualPacket("2", 95, "2024-01-01 10:00:00") == "MZ,0,2,95,2024-01-01 10:00:00,1,"
  {
    ExampleLineText("2024-01-01 10:00:00");
    assert "MZ,0,2,95," + "2024-01-01 10:00:00" + ",1," == "MZ,0,2,95,2024-01-01 10:00:00,1,";
  }

  lemma ExampleLineText(dt: string)
    ensures ManualPacket("2", 95, dt) == "MZ,0,2,95," + dt + ",1,"
  {
    ExampleSpeedText();
    assert "MZ,0," + "2" + "," + "95" + "," + dt + ",1," == "MZ,0,2,95," + dt + ",1,";
  }

  lemma ExampleShowCommand()
    ensures ShowCommand(95) + Crlf == "|T|22-18|95|7|1|1|1|\r\n"
    ensures DisplayDurationMs(95) == 1500
  {
    ExampleSpeedText();
    ShowCommandRedIffOverspeed(95);
  }

  /** Two readings for one lane in quick succession: the first's clear timer is
      superseded and never fires, the second's fires with the clear command. */
  lemma SupersededClearNeverSent(st: State, registry: map<string, Endpoint>, lane: string,
                                 first: int, second: int, dt1: string, dt2: string, receivedAt: string)
    requires Valid(st)
    requires lane in registry && FieldSeparator !in lane && Strip(lane) == lane
    requires FieldSeparator !in dt1 && FieldSeparator !in dt2
    requires WithinDigitLimit(first) && WithinDigitLimit(second)
    ensures var (st1, out1) := HandlePacket(st, registry, ManualPacket(lane, first, dt1), receivedAt, true);
            var (st2, out2) := HandlePacket(st1, registry, ManualPacket(lane, second, dt2), receivedAt, true);
            && out1.armed.Some? && out2.armed.Some?
            && out1.recorded.value.txn < out2.recorded.value.txn
            && FireTimer(st2, out1.armed.value).1 == None
            && FireTimer(st2, out2.armed.value).1 == Some(SendTcp(registry[lane], ClearCommand))
            && SendTcp(registry[lane], ClearCommand) == Send(registry[lane], ClearCommand + Crlf, ClearTag)
  {
    var r1 := Reading(lane, first, dt1);
    var r2 := Reading(lane, second, dt2);
    var p1 := ManualPacket(lane, first, dt1);
    var p2 := ManualPacket(lane, second, dt2);
    ManualPacketRoundTrip(lane, first, dt1, receivedAt);
    ManualPacketRoundTrip(lane, second, dt2, receivedAt);
    HandleParsed(st, registry, p1, receivedAt, true, r1);
    var st1 := HandlePacket(st, registry, p1, receivedAt, true).0;
    HandleParsed(st1, registry, p2, receivedAt, true, r2);
    SupersededReadings(st, registry, r1, r2);
    ClearSent(registry[lane]);
  }

  /** The same for two parsed readings of one lane. */
  lemma SupersededReadings(st: State, registry: map<string, Endpoint>, first: Reading, second: Reading)
    requires Valid(st)
    requires first.lane in registry && second.lane == first.lane
    ensures var (st1, out1) := HandleReading(st, registry, Some(first), true);
            var (st2, out2) := HandleReading(st1, registry, Some(second), true);
            && out1.armed.Some? && out2.armed.Some?
            && out1.recorded.value.txn < out2.recorded.value.txn
            && FireTimer(st2, out1.armed.value).1 == None
            && FireTimer(st2, out2.armed.value).1 == Some(SendTcp(registry[first.lane], ClearCommand))
  {
    var lane := first.lane;
    var st1 := HandleReading(st, registry, Some(first), true).0;
    ReadingValid(st, registry, first, true);
    ReadingDispatched(st, registry, first);
    ReadingDispatched(st1, registry, second);
    ReadingRecorded(st, registry, first, true);
    ReadingRecorded(st1, registry, second, true);
    RearmSupersedes(st1.timers, lane, registry[lane], DisplayDurationMs(second.speed), ClearCommand);
  }

  // ---------------------------------------------------------------------------
  // manual entry

  /** One round of the manual entry loop: quit on `exit` in any letter case,
      refuse a lane without a display or a speed `int()` rejects, otherwise submit
      the synthesized packet. */
  datatype ManualStep = Quit | InvalidLane | InvalidSpeed | Submit(packet: string)

  /** `lane.lower() == "exit"`: no character outside ASCII lower-cases to one of
      these letters, so this is the ASCII case-insensitive comparison. */
  predicate IsExit(s: string)
  {
    && |s| == 4
    && (s[0] == 'e' || s[0] == 'E')
    && (s[1] == 'x' || s[1] == 'X')
    && (s[2] == 'i' || s[2] == 'I')
    && (s[3] == 't' || s[3] == 'T')
  }

  function ManualEntry(laneInput: string, speedInput: string, registry: map<string, Endpoint>, now: string): (r: ManualStep)
    ensures r == Quit <==> IsExit(Strip(laneInput))
    ensures r == InvalidLane <==> !IsExit(Strip(laneInput)) && Strip(laneInput) !in registry
    ensures r == InvalidSpeed <==>
              !IsExit(Strip(laneInput)) && Strip(laneInput) in registry && ParseInt(Strip(speedInput)).None?
    ensures r.Submit? ==> && Strip(laneInput) in registry
                          && ParseInt(Strip(speedInput)).Some?
                          && r.packet == ManualPacket(Strip(laneInput), ParseInt(Strip(speedInput)).value, now)
  {
    var lane := Strip(laneInput);
    if IsExit(lane) then Quit
    else if lane !in registry then InvalidLane
    else
      match ParseInt(Strip(speedInput))
      case None => InvalidSpeed
      case Some(speed) => Submit(ManualPacket(lane, speed, now))
  }

  /** A submitted manual packet goes through the same handler as a datagram and is
      always dispatched to the chosen lane's display with the entered speed,
      provided the lane name and the timestamp hold no comma. */
  lemma ManualEntryDispatched(st: State, laneInput: string, speedInput: string,
                              registry: map<string, Endpoint>, now: string, receivedAt: string)
    requires ManualEntry(laneInput, speedInput, registry, now).Submit?
    requires FieldSeparator !in Strip(laneInput) && FieldSeparator !in now
    ensures var lane := Strip(laneInput);
            var speed := ParseInt(Strip(speedInput)).value;
            var packet := ManualEntry(laneInput, speedInput, registry, now).packet;
            && Parse(packet, receivedAt) == Some(Reading(lane, speed, now))
            && HandlePacket(st, registry, packet, receivedAt, true).1.sends
               == [Send(registry[lane], ShowCommand(speed) + Crlf, DisplayTag)]
  {
    var lane := Strip(laneInput);
    TrimIdempotent(laneInput, IsSpace);
    var speed := ParseInt(Strip(speedInput)).value;
    var packet := ManualPacket(lane, speed, now);
    assert ManualEntry(laneInput, speedInput, registry, now).packet == packet;
    ManualPacketRoundTrip(lane, speed, now, receivedAt);
    var reading := Reading(lane, speed, now);
    assert Parse(packet, receivedAt) == Some(reading);
    ReadingDispatched(st, registry, reading);
    var out := HandlePacket(st, registry, packet, receivedAt, true).1;
    assert out == HandleReading(st, registry, Some(reading), true).1;
  }
}

=== FILE: parser.dfy ===
/** The reading parser of `handle_packet` (listener.py:155-163) and the packet line
    the manual entry path synthesizes (listener.py:226). */
module Parser {
  import opened Radar
  import opened Strings
  import opened Integers

  /** One accepted radar observation. The speed is whatever `int()` read, so it may
      be negative. */
  datatype Reading = Reading(lane: string, speed: int, observedAt: string)

  const FieldSeparator: char := ','

  /** Fewer comma-separated fields than this and the line is dropped. */
  const MinFields: nat := 4

  /** Parses one datagram line; `receivedAt` stands for the receipt timestamp the
      handler formats before parsing, used when the line carries no field 4. */
  function Parse(text: string, receivedAt: string): (r: Option<Reading>)
    ensures r.Some? ==> Count(text, FieldSeparator) >= MinFields - 1
    ensures r.Some? ==> FieldSeparator !in r.value.lane && Strip(r.value.lane) == r.value.lane
    ensures r.Some? ==> WithinDigitLimit(r.value.speed)
  {
    var parts := Split(text, FieldSeparator);
    SplitCount(text, FieldSeparator);
    if |parts| < MinFields then None
    else
      match ParseInt(parts[3])
      case None => None
      case Some(speed) =>
        var observedAt := if |parts| > 4 then parts[4] else receivedAt;
        TrimIdempotent(parts[2], IsSpace);
        Some(Reading(Strip(parts[2]), speed, observedAt))
  }

  /** A line with fewer than three commas has fewer than four fields and is
      rejected. */
  lemma ShortLineRejected(text: string, receivedAt: string)
    requires Count(text, FieldSeparator) < MinFields - 1
    ensures Parse(text, receivedAt) == None
  {
  }

  /** Parsing a line assembled from comma-free fields: rejected exactly when there
      are fewer than four fields or field 3 is not an integer; otherwise the lane
      is field 2 stripped, the speed is `int(field 3)`, and the timestamp is field
      4 if there is one, else the receipt time. */
  lemma {:induction false} ParseFields(fields: seq<string>, receivedAt: string)
    requires |fields| >= 1
    requires forall i :: 0 <= i < |fields| ==> FieldSeparator !in fields[i]
    ensures |fields| < MinFields ==> Parse(Join(fields, FieldSeparator), receivedAt) == None
    ensures |fields| >= MinFields && ParseInt(fields[3]).None? ==>
              Parse(Join(fields, FieldSeparator), receivedAt) == None
    ensures |fields| >= MinFields && ParseInt(fields[3]).Some? ==>
              Parse(Join(fields, FieldSeparator), receivedAt)
              == Some(Reading(Strip(fields[2]), ParseInt(fields[3]).value,
                              if |fields| > 4 then fields[4] else receivedAt))
  {
    SplitJoin(fields, FieldSeparator);
  }

  /** The line the manual entry path builds: `MZ,0,{lane},{speed},{dt},1,`. */
  function ManualPacket(lane: string, speed: int, dt: string): (packet: string)
    ensures StartsWith(packet, "MZ,0,") && EndsWith(packet, ",1,")
    ensures |packet| == |lane| + |IntToString(speed)| + |dt| + 10
  {
    "MZ,0," + lane + "," + IntToString(speed) + "," + dt + ",1,"
  }

  /** The manual packet is the join of its seven fields. */
  lemma ManualPacketFields(lane: string, speed: int, dt: string)
    ensures ManualPacket(lane, speed, dt)
            == Join(["MZ", "0", lane, IntToString(speed), dt, "1", ""], FieldSeparator)
  {
    var n := IntToString(speed);
    var rest := [n, dt, "1", ""];
    JoinPacketTail(n, dt);
    JoinPacketHead(lane, rest, n + "," + dt + ",1,");
    assert ["MZ", "0", lane] + rest == ["MZ", "0", lane, n, dt, "1", ""];
  }

  lemma JoinPacketTail(n: string, dt: string)
    ensures Join([n, dt, "1", ""], ',') == n + "," + dt + ",1,"
  {
    JoinPrepend("1", [""], ',');
    JoinPrepend(dt, ["1", ""], ',');
    JoinPrepend(n, [dt, "1", ""], ',');
  }

  lemma JoinPacketHead(lane: string, rest: seq<string>, tail: string)
    requires |rest| >= 1 && Join(rest, ',') == tail
    ensures Join(["MZ", "0", lane] + rest, ',') == "MZ,0," + lane + "," + tail
  {
    JoinPrepend(lane, rest, ',');
    JoinPrepend("0", [lane] + rest, ',');
    JoinPrepend("MZ", ["0"] + ([lane] + rest), ',');
    PacketHeadParts(lane, rest);
    PacketHeadText(lane, tail);
  }

  lemma PacketHeadParts(lane: string, rest: seq<string>)
    ensures ["MZ"] + (["0"] + ([lane] + rest)) == ["MZ", "0", lane] + rest
  {
  }

  lemma PacketHeadText(lane: string, tail: string)
    ensures "MZ" + "," + ("0" + "," + (lane + "," + tail)) == "MZ,0," + lane + "," + tail
  {
  }

  /** Round trip of the manual path: the synthesized line parses back to the lane
      (stripped), speed and timestamp it was built from, provided neither the lane
      nor the timestamp contains a comma. */
  lemma ManualPacketRoundTrip(lane: string, speed: int, dt: string, receivedAt: string)
    requires FieldSeparator !in lane && FieldSeparator !in dt
    requires WithinDigitLimit(speed)
    ensures Parse(ManualPacket(lane, speed, dt), receivedAt) == Some(Reading(Strip(lane), speed, dt))
  {
    var fs := ["MZ", "0", lane, IntToString(speed), dt, "1", ""];
    ManualPacketFields(lane, speed, dt);
    assert FieldSeparator !in IntToString(speed) by {
      var p := IntToString(speed);
      forall i | 0 <= i < |p| ensures p[i] != FieldSeparator { }
    }
    assert forall i :: 0 <= i < |fs| ==> FieldSeparator !in fs[i];
    ParseIntOfString(speed);
    assert ParseInt(fs[3]) == Some(speed);
    ParseFields(fs, receivedAt);
  }
}

=== FILE: radar.dfy ===
/** Vocabulary shared by every stage of the radar-to-display pipeline. */
module Radar {

  /** The usual Some/None wrapper, used for rejections and absent values. */
  datatype Option<+T> = None | Some(value: T)

  /** A roadside display unit's stream endpoint, as the lane registry lists it. */
  datatype Endpoint = Endpoint(host: string, port: int)

  /** Speeds (km/h) strictly above this are overspeed: they are recorded with the
      overspeed flag and shown with the red variant of the show command. */
  const OverspeedLimit: int := 80

  predicate IsOverspeed(speed: int)
  {
    speed > OverspeedLimit
  }
}

=== FILE: strings.dfy ===
/** The handful of Python `str` operations the listener relies on: `split` with an
    explicit separator, `strip()`, `endswith` and the `in` substring test. */
module Strings {

  /** Python's `str.isspace()` for one character: the ASCII controls \t..\r and
      \x1c..\x1f, the space, and the Unicode separators Python treats as whitespace. */
  predicate IsSpace(c: char)
  {
    || c == ' '
    || ('\t' <= c <= '\r')
    || ('\U{1C}' <= c <= '\U{1F}')
    || c == '\U{85}' || c == '\U{A0}' || c == '\U{1680}'
    || ('\U{2000}' <= c <= '\U{200A}')
    || c == '\U{2028}' || c == '\U{2029}' || c == '\U{202F}' || c == '\U{205F}'
    || c == '\U{3000}'
  }

  /** True when every character of `s` satisfies `space`. */
  predicate AllOf(s: string, space: char -> bool)
  {
    forall i :: 0 <= i < |s| ==> space(s[i])
  }

  /** Drops the longest prefix of characters satisfying `space`. */
  function TrimStart(s: string, space: char -> bool): (r: string)
    ensures |r| <= |s| && r == s[|s| - |r|..]
    ensures AllOf(s[..|s| - |r|], space)
    ensures r != [] ==> !space(r[0])
    decreases |s|
  {
    if s != [] && space(s[0]) then TrimStart(s[1..], space) else s
  }

  /** Drops the longest suffix of characters satisfying `space`. */
  function TrimEnd(s: string, space: char -> bool): (r: string)
    ensures |r| <= |s| && r == s[..|r|]
    ensures AllOf(s[|r|..], space)
    ensures r != [] ==> !space(r[|r| - 1])
    decreases |s|
  {
    if s != [] && space(s[|s| - 1]) then TrimEnd(s[..|s| - 1], space) else s
  }

  /** Trims `space` characters from both ends. */
  function Trim(s: string, space: char -> bool): (r: string)
    ensures |r| <= |s|
    ensures r != [] ==> !space(r[0]) && !space(r[|r| - 1])
  {
    TrimEnd(TrimStart(s, space), space)
  }

  /** Python's `s.strip()` with no argument. */
  function Strip(s: string): (r: string)
    ensures |r| <= |s|
    ensures r != [] ==> !IsSpace(r[0]) && !IsSpace(r[|r| - 1])
    ensures r == [] <==> AllOf(s, IsSpace)
  {
    var front := TrimStart(s, IsSpace);
    assert s == s[..|s| - |front|] + front;
    Trim(s, IsSpace)
  }

  /** A string that neither starts nor ends with a `space` character is its own trim. */
  lemma TrimUnpadded(s: string, space: char -> bool)
    requires s != [] ==> !space(s[0]) && !space(s[|s| - 1])
    ensures Trim(s, space) == s
  {
  }

  /** Trimming is idempotent: `s.strip().strip() == s.strip()`. */
  lemma TrimIdempotent(s: string, space: char -> bool)
    ensures Trim(Trim(s, space), space) == Trim(s, space)
  {
    TrimUnpadded(Trim(s, space), space);
  }

  /** Padding made only of trimmed characters around an unpadded core is removed
      exactly: the core comes back. */
  lemma {:induction false} TrimPadded(a: string, x: string, b: string, space: char -> bool)
    requires AllOf(a, space) && AllOf(b, space)
    requires x != [] && !space(x[0]) && !space(x[|x| - 1])
    ensures Trim(a + x + b, space) == x
  {
    var y := x + b;
    assert a + x + b == a + y;
    TrimStartPadded(a, y, space);
    TrimEndPadded(x, b, space);
    calc {
      Trim(a + x + b, space);
      TrimEnd(TrimStart(a + y, space), space);
      TrimEnd(y, space);
    }
  }

  lemma {:induction false} TrimStartPadded(a: string, y: string, space: char -> bool)
    requires AllOf(a, space)
    requires y != [] && !space(y[0])
    ensures TrimStart(a + y, space) == y
    decreases |a|
  {
    if a != [] {
      assert (a + y)[1..] == a[1..] + y;
      assert AllOf(a[1..], space) by {
        forall i | 0 <= i < |a[1..]| ensures space(a[1..][i]) { assert a[1..][i] == a[i + 1]; }
      }
      TrimStartPadded(a[1..], y, space);
    } else {
      assert a + y == y;
    }
  }

  lemma {:induction false} TrimEndPadded(x: string, b: string, space: char -> bool)
    requires AllOf(b, space)
    requires x != [] && !space(x[|x| - 1])
    ensures TrimEnd(x + b, space) == x
    decreases |b|
  {
    if b != [] {
      var b' := b[..|b| - 1];
      assert (x + b)[..|x + b| - 1] == x + b';
      assert AllOf(b', space) by {
        forall i | 0 <= i < |b'| ensures space(b'[i]) { assert b'[i] == b[i]; }
      }
      TrimEndPadded(x, b', space);
    } else {
      assert x + b == x;
    }
  }

  // ---------------------------------------------------------------------------
  // split / join

  /** Python's `s.split(sep)` with an explicit one-character separator: every
      separator ends a field, so the result always has one more field than `s`
      has separators, and empty fields are kept. */
  function Split(s: string, sep: char): (parts: seq<string>)
    ensures |parts| >= 1
    ensures forall i :: 0 <= i < |parts| ==> sep !in parts[i]
    decreases |s|
  {
    if s == [] then [[]]
    else
      var rest := Split(s[1..], sep);
      if s[0] == sep then [[]] + rest
      else [[s[0]] + rest[0]] + rest[1..]
  }

  /** Python's `sep.join(parts)`; the inverse of `Split`. */
  function Join(parts: seq<string>, sep: char): (r: string)
    requires |parts| >= 1
    ensures StartsWith(r, parts[0]) && EndsWith(r, parts[|parts| - 1])
    ensures |r| >= |parts| - 1
    decreases |parts|
  {
    if |parts| == 1 then parts[0] else parts[0] + [sep] + Join(parts[1..], sep)
  }

  /** Joining one more field in front adds it and a separator. */
  lemma JoinPrepend(first: string, parts: seq<string>, sep: char)
    requires |parts| >= 1
    ensures Join([first] + parts, sep) == first + [sep] + Join(parts, sep)
  {
    assert ([first] + parts)[1..] == parts;
  }

  /** Number of occurrences of `c` in `s`. */
  function Count(s: string, c: char): nat
    decreases |s|
  {
    if s == [] then 0 else (if s[0] == c then 1 else 0) + Count(s[1..], c)
  }

  /** Splitting and joining back gives the original text. */
  lemma {:induction false} JoinSplit(s: string, sep: char)
    ensures Join(Split(s, sep), sep) == s
    decreases |s|
  {
    if s != [] {
      var rest := Split(s[1..], sep);
      JoinSplit(s[1..], sep);
      if s[0] == sep {
        JoinPrepend([], rest, sep);
      } else {
        JoinExtendFirst(s[0], rest, sep);
      }
      assert s == [s[0]] + s[1..];
    }
  }

  /** Putting a character in front of the first field puts it in front of the
      joined text. */
  lemma JoinExtendFirst(c: char, parts: seq<string>, sep: char)
    requires |parts| >= 1
    ensures Join([[c] + parts[0]] + parts[1..], sep) == [c] + Join(parts, sep)
  {
    var extended := [[c] + parts[0]] + parts[1..];
    assert extended[0] == [c] + parts[0];
    if |parts| > 1 {
      var tail := Join(parts[1..], sep);
      assert extended[1..] == parts[1..];
      assert ([c] + parts[0]) + [sep] + tail == [c] + (parts[0] + [sep] + tail);
    }
  }

  /** Split yields exactly one more field than there are separators. */
  lemma {:induction false} SplitCount(s: string, sep: char)
    ensures |Split(s, sep)| == Count(s, sep) + 1
    decreases |s|
  {
    if s != [] {
      SplitCount(s[1..], sep);
    }
  }

  /** A separator-free text is one field. */
  lemma {:induction false} SplitNoSep(a: string, sep: char)
    requires sep !in a
    ensures Split(a, sep) == [a]
    decreases |a|
  {
    if a != [] {
      SplitNoSep(a[1..], sep);
      assert a == [a[0]] + a[1..];
    }
  }

  /** A separator-free first field is split off whole. */
  lemma {:induction false} SplitFirst(a: string, b: string, sep: char)
    requires sep !in a
    ensures Split(a + [sep] + b, sep) == [a] + Split(b, sep)
    decreases |a|
  {
    var s := a + [sep] + b;
    if a == [] {
      assert s[1..] == b;
    } else {
      assert s[1..] == a[1..] + [sep] + b;
      SplitFirst(a[1..], b, sep);
      assert a == [a[0]] + a[1..];
    }
  }

  /** Joining separator-free fields and splitting again gives the fields back. */
  lemma {:induction false} SplitJoin(parts: seq<string>, sep: char)
    requires |parts| >= 1
    requires forall i :: 0 <= i < |parts| ==> sep !in parts[i]
    ensures Split(Join(parts, sep), sep) == parts
    decreases |parts|
  {
    if |parts| == 1 {
      SplitNoSep(parts[0], sep);
    } else {
      SplitJoin(parts[1..], sep);
      SplitFirst(parts[0], Join(parts[1..], sep), sep);
      assert parts == [parts[0]] + parts[1..];
    }
  }

  // ---------------------------------------------------------------------------
  // substring tests

  predicate StartsWith(s: string, p: string)
  {
    |p| <= |s| && s[..|p|] == p
  }

  /** Python's `s.endswith(p)`: `s` is some text followed by `p`. */
  function EndsWith(s: string, p: string): (b: bool)
    ensures b <==> |p| <= |s| && s == s[..|s| - |p|] + p
  {
    |p| <= |s| && s[|s| - |p|..] == p
  }

  /** `(s + p).endswith(p)`, and a text ending in `p` keeps ending in `p` when
      more text is put in front. */
  lemma EndsWithAppended(s: string, p: string, front: string)
    ensures EndsWith(s + p, p)
    ensures EndsWith(s, p) ==> EndsWith(front + s, p)
  {
    assert (s + p)[|s + p| - |p|..] == p;
    if EndsWith(s, p) {
      assert (front + s)[|front + s| - |p|..] == s[|s| - |p|..];
    }
  }

  /** Python's `p in s`, scanning for `p` at each position of `s`. */
  function Contains(s: string, p: string): (b: bool)
    ensures StartsWith(s, p) ==> b
    ensures b ==> |p| <= |s|
    decreases |s|
  {
    StartsWith(s, p) || (s != [] && Contains(s[1..], p))
  }

  /** `p` occurs in `s` starting at position `i`. */
  predicate OccursAt(s: string, p: string, i: int)
  {
    0 <= i <= |s| - |p| && s[i..i + |p|] == p
  }

  /** `Contains` holds exactly when `p` occurs at some position of `s`. */
  lemma {:induction false} ContainsAt(s: string, p: string)
    ensures Contains(s, p) <==> exists i :: OccursAt(s, p, i)
    decreases |s|
  {
    if StartsWith(s, p) {
      assert OccursAt(s, p, 0);
    }
    if s != [] {
      ContainsAt(s[1..], p);
      if Contains(s[1..], p) {
        var i :| OccursAt(s[1..], p, i);
        assert s[1..][i..i + |p|] == s[i + 1..i + 1 + |p|];
        assert OccursAt(s, p, i + 1);
      }
      if exists i :: OccursAt(s, p, i) {
        var i :| OccursAt(s, p, i);
        if i > 0 {
          assert s[1..][i - 1..i - 1 + |p|] == s[i..i + |p|];
          assert OccursAt(s[1..], p, i - 1);
        }
      }
    }
  }

  /** A pattern holding a character the text lacks never occurs in it. */
  lemma {:induction false} ContainsNeedsChar(s: string, p: string, c: char)
    requires c in p && c !in s
    ensures !Contains(s, p)
    decreases |s|
  {
    if s != [] {
      ContainsNeedsChar(s[1..], p, c);
    }
  }
}

=== FILE: transactions.dfy ===
/** The transaction sequencer: the startup seeding of the counter in `init_db`
    (listener.py:47-48) and `save_transaction` (listener.py:103-114), which numbers
    each accepted reading and keeps the ten newest in a `deque(maxlen=10)`. */
module Transactions {
  import opened Radar
  import opened Parser

  /** One numbered record of an accepted reading. */
  datatype Transaction = Transaction(txn: int, lane: string, speed: int, timestamp: string, overspeed: bool)

  /** The sequencer's state: the last number handed out and the recent history,
      newest first. */
  datatype Ledger = Ledger(counter: int, history: seq<Transaction>)

  /** Capacity of the recent-history buffer (listener.py:17). */
  const HistoryCapacity: nat := 10

  /** What `save_transaction` writes for the presentation side: the newest
      transaction and the history buffer. */
  datatype Snapshot = Snapshot(latest: Option<Transaction>, last10: seq<Transaction>)

  /** What `init_db` learns from the store: the value of
      `COALESCE(MAX(txn_no), 0)` (0 for an empty store), or nothing because
      connecting or querying raised and the error was only printed. */
  datatype StoreRead = MaxTxnNo(value: int) | InitFailed

  /** The sequencer at startup: the counter is the stored maximum, and stays at its
      initial 0 when `init_db` failed; the history is empty. */
  function Seed(read: StoreRead): (l: Ledger)
    ensures Valid(l) && l.history == []
    ensures read.MaxTxnNo? ==> l.counter == read.value
    ensures read.InitFailed? ==> l.counter == 0
  {
    Ledger(if read.MaxTxnNo? then read.value else 0, [])
  }

  /** The first `HistoryCapacity` elements of `s` (all of them when fewer). */
  function Newest(s: seq<Transaction>): (r: seq<Transaction>)
    ensures |r| == if |s| < HistoryCapacity then |s| else HistoryCapacity
    ensures r == s[..|r|]
  {
    if |s| <= HistoryCapacity then s else s[..HistoryCapacity]
  }

  /** `save_transaction`: the next number, the overspeed flag, and the entry pushed
      to the front of the bounded history. */
  function Record(ledger: Ledger, reading: Reading): (r: (Ledger, Transaction))
    ensures r.1.txn == ledger.counter + 1 == r.0.counter
    ensures r.1.overspeed <==> IsOverspeed(reading.speed)
    ensures r.1.lane == reading.lane && r.1.speed == reading.speed && r.1.timestamp == reading.observedAt
    ensures |r.0.history| == if |ledger.history| < HistoryCapacity then |ledger.history| + 1 else HistoryCapacity
    ensures r.0.history[0] == r.1
    ensures r.0.history[1..] == ledger.history[..|r.0.history| - 1]
  {
    var n := ledger.counter + 1;
    var entry := Transaction(n, reading.lane, reading.speed, reading.observedAt, IsOverspeed(reading.speed));
    (Ledger(n, Newest([entry] + ledger.history)), entry)
  }

  /** The snapshot `save_transaction` writes after recording `entry`: the entry as
      `latest`, and the history, which `entry` heads, as `last10`. */
  function SnapshotAfter(ledger: Ledger, entry: Transaction): (snapshot: Snapshot)
    requires ledger.history != [] && ledger.history[0] == entry
    ensures snapshot.latest.Some? && snapshot.last10 != []
    ensures snapshot.last10[0] == snapshot.latest.value
    ensures snapshot.latest == Some(entry) && snapshot.last10 == ledger.history
  {
    Snapshot(Some(entry), ledger.history)
  }

  /** Transaction numbers strictly decrease along `s`. */
  ghost predicate NewestFirst(s: seq<Transaction>)
  {
    forall i, j :: 0 <= i < j < |s| ==> s[i].txn > s[j].txn
  }

  /** The invariant the sequencer keeps: the history fits the buffer, is newest
      first, its head carries the current counter, and every entry's overspeed flag
      agrees with its speed. */
  ghost predicate Valid(ledger: Ledger)
  {
    && |ledger.history| <= HistoryCapacity
    && NewestFirst(ledger.history)
    && (forall i :: 0 <= i < |ledger.history| ==> ledger.history[i].txn <= ledger.counter)
    && (ledger.history != [] ==> ledger.history[0].txn == ledger.counter)
    && (forall i :: 0 <= i < |ledger.history| ==>
          (ledger.history[i].overspeed <==> IsOverspeed(ledger.history[i].speed)))
  }

  /** After a restart the first transaction is numbered one past the stored
      maximum, e.g. 43 after 42, and 1 on an empty store. */
  lemma FirstAfterRestart(read: StoreRead, reading: Reading)
    ensures read.MaxTxnNo? ==> Record(Seed(read), reading).1.txn == read.value + 1
    ensures read.InitFailed? ==> Record(Seed(read), reading).1.txn == 1
    ensures Record(Seed(MaxTxnNo(42)), reading).1.txn == 43
    ensures Record(Seed(MaxTxnNo(0)), reading).1.txn == 1
  {
  }

  /** Recording keeps the sequencer invariant. */
  lemma RecordValid(ledger: Ledger, reading: Reading)
    requires Valid(ledger)
    ensures Valid(Record(ledger, reading).0)
  {
    var (l, e) := Record(ledger, reading);
    forall i, j | 0 <= i < j < |l.history| ensures l.history[i].txn > l.history[j].txn {
      if i > 0 {
        assert l.history[i] == ledger.history[i - 1];
      }
      assert l.history[j] == ledger.history[j - 1];
    }
    forall i | 0 < i < |l.history|
      ensures l.history[i] == ledger.history[i - 1]
    {
      assert l.history[i] == l.history[1..][i - 1];
    }
  }

  /** Records a sequence of readings in order, returning the final ledger and the
      transactions produced, oldest first. */
  function RecordAll(ledger: Ledger, readings: seq<Reading>): (r: (Ledger, seq<Transaction>))
    ensures |r.1| == |readings|
    decreases |readings|
  {
    if readings == [] then (ledger, [])
    else
      var (next, entry) := Record(ledger, readings[0]);
      var (last, entries) := RecordAll(next, readings[1..]);
      (last, [entry] + entries)
  }

  /** Successive transactions are numbered seed + 1, seed + 2, ... with no gap and
      no repeat, and the counter ends at the last number handed out. */
  lemma {:induction false} RecordAllNumbers(ledger: Ledger, readings: seq<Reading>)
    ensures RecordAll(ledger, readings).0.counter == ledger.counter + |readings|
    ensures forall i :: 0 <= i < |readings| ==>
              RecordAll(ledger, readings).1[i].txn == ledger.counter + 1 + i
    decreases |readings|
  {
    if readings != [] {
      var (next, entry) := Record(ledger, readings[0]);
      RecordAllNumbers(next, readings[1..]);
      var entries := RecordAll(ledger, readings).1;
      assert entries[1..] == RecordAll(next, readings[1..]).1;
      forall i | 0 < i < |readings|
        ensures entries[i].txn == ledger.counter + 1 + i
      {
        assert entries[i] == entries[1..][i - 1];
      }
    }
  }

  /** Transaction numbers handed out in one run are strictly increasing, hence
      pairwise distinct. */
  lemma RecordAllIncreasing(ledger: Ledger, readings: seq<Reading>)
    ensures forall i, j :: 0 <= i < j < |readings| ==>
              RecordAll(ledger, readings).1[i].txn < RecordAll(ledger, readings).1[j].txn
  {
    RecordAllNumbers(ledger, readings);
  }

  /** Numbering after a start: from a store read every new number is above the
      stored maximum, but after a swallowed `init_db` failure the counter restarts
      at 0, so the transaction recorded `stored`-th gets the number `stored` again,
      one the store already holds when `stored` is its maximum. */
  lemma FailedInitReusesStoredNumbers(stored: int, readings: seq<Reading>)
    requires 1 <= stored <= |readings|
    ensures forall i :: 0 <= i < |readings| ==> RecordAll(Seed(MaxTxnNo(stored)), readings).1[i].txn > stored
    ensures RecordAll(Seed(InitFailed), readings).1[stored - 1].txn == stored
  {
    RecordAllNumbers(Seed(MaxTxnNo(stored)), readings);
    RecordAllNumbers(Seed(InitFailed), readings);
  }

  function Reverse(s: seq<Transaction>): (r: seq<Transaction>)
    ensures |r| == |s|
    ensures forall i :: 0 <= i < |s| ==> r[i] == s[|s| - 1 - i]
    decreases |s|
  {
    if s == [] then [] else Reverse(s[1..]) + [s[0]]
  }

  /** After any run, the history is the ten most recent transactions, newest
      first: the run's output reversed, then the old history, cut to capacity. */
  lemma {:induction false} RecordAllHistory(ledger: Ledger, readings: seq<Reading>)
    requires |ledger.history| <= HistoryCapacity
    ensures RecordAll(ledger, readings).0.history
            == Newest(Reverse(RecordAll(ledger, readings).1) + ledger.history)
    decreases |readings|
  {
    if readings == [] {
      assert Reverse([]) + ledger.history == ledger.history;
    } else {
      var (next, entry) := Record(ledger, readings[0]);
      var rest := RecordAll(next, readings[1..]).1;
      RecordAllHistory(next, readings[1..]);
      assert RecordAll(ledger, readings).1 == [entry] + rest;
      ReversePrepend(entry, rest);
      HistoryChain(Reverse(rest), entry, ledger.history);
    }
  }

  /** Pushing `entry` and then the entries of `front` equals pushing them all at
      once. */
  lemma HistoryChain(front: seq<Transaction>, entry: Transaction, history: seq<Transaction>)
    ensures Newest(front + Newest([entry] + history)) == Newest((front + [entry]) + history)
  {
    NewestAbsorbs(front, [entry] + history);
    assert front + ([entry] + history) == (front + [entry]) + history;
  }

  lemma ReversePrepend(x: Transaction, s: seq<Transaction>)
    ensures Reverse([x] + s) == Reverse(s) + [x]
  {
    assert ([x] + s)[1..] == s;
  }

  /** Cutting to capacity before prepending more entries changes nothing. */
  lemma NewestAbsorbs(front: seq<Transaction>, back: seq<Transaction>)
    ensures Newest(front + Newest(back)) == Newest(front + back)
  {
    var a := front + Newest(back);
    var b := front + back;
    var k := |Newest(a)|;
    assert k == |Newest(b)|;
    forall i | 0 <= i < k ensures Newest(a)[i] == Newest(b)[i] {
      if i >= |front| {
        assert a[i] == Newest(back)[i - |front|];
      }
    }
  }
}
